=== FILE: README.md ===
# Blog client and posts API, modelled in Dafny

This project models the decision logic of a small blogging application. The
model covers a React client and the Django REST view that serves posts:

- **Register** (`Register.jsx`): the registration form's field validators,
  its ordered password rules, the 0–5 password-strength meter, and the submit
  handler.
- **Login** (`Login.jsx`): the login form's validators, and what a submit does
  to the `access` cookie, the banner and the route.
- **Feed** (`posts.jsx`): the post feed's state.
  - The page window each request asks for (limit 6, offset `(page - 1) * 6`).
  - Replacing the list on the initial load and appending on later loads.
  - The `hasMore` rule and error handling.
  - Deleting by id, which keeps the order of the remaining posts.
  - Who sees the edit, delete and add-post controls.
  - Which of the four views renders.
- **PostEditor** (`AddPost.jsx`): the post editor.
  - The schema, which depends on the mode.
  - The initial values.
  - The image-size gate and the error prefix of the upload.
  - The choice between `POST /posts` and `PATCH /posts/{id}`.
  - The choice between a new and a kept image URL.
  - The rule that a failed upload aborts the write.
  - The error fallbacks.
- **Routes** (`App.jsx`): the application shell.
  - The authentication flag.
  - The `ProtectedRoute` and `AuthRoute` guards.
  - The route table, with react-router's case-insensitive, trailing-slash
    tolerant matching of literal patterns.
- **PostViews** (`backend/posts/views.py`): the posts API.
  - The permission classes of the list and detail views.
  - The order in which the REST framework applies them: view permissions, then
    405, then lookup and object permissions.
  - `create`, which binds the author to the requesting user and turns every
    exception into a 500 response.

Each source file is one module. `Common` holds the JavaScript vocabulary they
share:

- `Option` and the three-way `Reply` of an awaited `fetch`: ok, not-ok with an
  optional failure text read from the body, or a thrown error.
- Truthiness of strings.
- `String.length` counted in UTF-16 code units.
- ASCII case folding.

`EmailRule` gives the registration e-mail pattern twice: once as a grammar and
once as a decision procedure. It proves that the two agree. `EndToEnd` states
properties that cross components, for example how the API's 500 answer reaches
the editor's banner.

The network, cookies, the image host, the file reader, JWT decoding and the
clock are parameters of the functions:

- A fetch outcome is a `Reply`.
- The cookie is an `Option<string>`.
- The decoded `user_id` claim is an `Option` of a JavaScript id value: `null`, `undefined`, a number or a string.
- The image read is a boolean.
- Today's date is a string.

Paths in the table below are relative to the repository root.

## Model

| member | source | states |
|---|---|---|
| EmailRule.IsEmailMatchesPattern | frontend/src/components/Register.jsx:86-92 | The decision procedure accepts exactly the strings the e-mail pattern describes. Such a string has a non-empty local part over `[A-Za-z0-9._%+-]`, a single `@`, and a host over `[A-Za-z0-9.-]`. The host's last `.` is not its first character and is followed by at least two letters. |
| Register.ValidatePassword | frontend/src/components/Register.jsx:9-25 | No error iff all six rules hold: non-empty, at least 8 code units, an upper-case letter, a lower-case letter, a digit, and a character outside `[A-Za-z0-9]`. Otherwise the message is that of the first broken rule in the checking order. |
| Register.ShortPasswordReportsLength | frontend/src/components/Register.jsx:11-16 | A non-empty password shorter than 8 always gets the length message, whatever classes it lacks. |
| Register.AllClassesAccepted | frontend/src/components/Register.jsx:13-23 | A password of at least 8 code units with all four character classes is accepted. |
| Register.NonEmptyScoresAtLeastOne | frontend/src/components/Register.jsx:28-39 | The strength score of a non-empty password lies in 1..5, so the lookup at `score - 1` is always in range. |
| Register.StrengthScore | frontend/src/components/Register.jsx:28-36 | The score is at most 5. It is 0 exactly for the empty password, and 5 exactly when the password has 8 code units and all four character classes. |
| Register.AcceptedIffStrengthFive | frontend/src/components/Register.jsx:9-38 | The validator accepts a password iff its strength score is 5. |
| Register.StrengthMeter | frontend/src/components/Register.jsx:27-59 | The meter is absent iff the password is empty. Its label and colour are entry `score - 1` of the two tables, and exactly min(score, 4) of the four bars are lit. It shows "Very Strong" iff the validator accepts the password, and the colour is "success" iff the score is at least 4. |
| Register.UsernameError | frontend/src/components/Register.jsx:79-83 | An error iff the username is shorter than 3 code units. It is "Required" iff the username is empty, and "Username must be at least 3 characters" for 1 or 2 code units. |
| Register.EmailError | frontend/src/components/Register.jsx:86-92 | An error iff the e-mail does not match the pattern. It is "Required" iff the e-mail is empty, and "Invalid email address" for a non-empty e-mail that fails the pattern. |
| Register.ConfirmError | frontend/src/components/Register.jsx:99-101 | An error iff the two password fields differ, and the error is always "Passwords must match". |
| Register.PhoneError | frontend/src/components/Register.jsx:104-108 | An error iff the phone is not 10 to 15 ASCII digits. It is "Required" iff the phone is empty, and "Invalid phone number (10-15 digits)" for a non-empty bad number. |
| Register.AddressError | frontend/src/components/Register.jsx:111-115 | An error iff the address is shorter than 10 code units. It is "Required" iff the address is empty, and "Address too short" for 1 to 9 code units. |
| Register.Validate | frontend/src/components/Register.jsx:75-118 | The errors object has a key for a field exactly when that field's check fails, and the key holds that check's message. |
| Register.ValidateFieldByField | frontend/src/components/Register.jsx:75-118 | What makes each field invalid, in terms of the inputs alone. The password is invalid iff its strength score is below 5. |
| Register.MismatchIndependentOfStrength | frontend/src/components/Register.jsx:94-101 | The mismatch error depends only on the two password fields, never on the password's own verdict. |
| Register.Submit | frontend/src/components/Register.jsx:75-149 | Something is posted iff the form passes validation; a blocked submit posts nothing, stays put and keeps the earlier banner. Only username, e-mail and password are sent. Success goes to `/login` with no banner. A refusal shows the server's `message`, else "Registration failed". A thrown error shows its message, else the generic text. Submitting ends either way. |
| Login.ValidatePassword | frontend/src/components/Login.jsx:11-19 | "Required" iff empty, the length message iff 1 to 7 code units, no error iff at least 8. There are no character-class rules. |
| Login.RegisterAcceptedPasswordsLogIn | frontend/src/components/Login.jsx:11-19 | Every password the registration validator accepts passes the login validator. |
| Login.Validate | frontend/src/components/Login.jsx:33-44 | A username error iff the username is empty. A password error iff the password is shorter than 8 code units, and it carries the validator's message. |
| Login.Submit | frontend/src/components/Login.jsx:33-75 | A submit that validation blocks changes nothing. Otherwise success stores `data.access` as the session and goes to `/posts` with an empty banner, and a failure leaves the session and route alone and shows a non-empty banner: the server's message or "Login failed", or the thrown error's message or the generic text. |
| Login.BannerClearedOnSubmit | frontend/src/components/Login.jsx:33-47 | The banner left by a submit that passes validation depends only on the reply, not on the banner already shown. A submit that validation blocks keeps the banner already shown. |
| Feed.RequestFor | frontend/src/components/posts.jsx:32-49 | Page `n` is requested with limit 6 and offset `(n - 1) * 6`. The `Authorization` header is sent iff the token is present and non-empty, and it is then "Bearer " followed by the token. |
| Feed.Mount | frontend/src/components/posts.jsx:17-30 | The first request is for page 1. A user id is set only from a present token whose decoding succeeded, and is then that decoded value. The rest of the state is the initial state. |
| Feed.Receive | frontend/src/components/posts.jsx:51-71 | An initial load replaces the list and a later one appends to it. `hasMore` holds iff the page had exactly 6 posts. A failure records "Failed to fetch posts" or the thrown message and keeps the list and `hasMore`. Loading ends either way. |
| Feed.LoadMore | frontend/src/components/posts.jsx:74-79 | The page counter goes up by exactly one, and the new request starts at offset `page * 6`. |
| Feed.RoundsAdvancePage | frontend/src/components/posts.jsx:74-79 | After `k` load-more rounds the page has advanced by `k`. Round `i` asks for offset `(page + i) * 6` and limit 6, whatever the replies were. |
| Feed.RunWindowsContiguous | frontend/src/components/posts.jsx:29-79 | The requests of a session ask for the windows `[0,6)`, `[6,12)`, … in order. Each starts where the previous one ended, so the windows are contiguous and disjoint. |
| Feed.RoundsAppendPages | frontend/src/components/posts.jsx:59-66 | When every round succeeds, the list is the old list followed by the pages in arrival order. The error is untouched, and `hasMore` reflects the last page. |
| Feed.RunConcatenatesPages | frontend/src/components/posts.jsx:59-66 | A session of successful fetches shows the concatenation of the fetched pages, and its length is the sum of their lengths. |
| Feed.WithoutId | frontend/src/components/posts.jsx:101 | A post is kept iff it was in the list and its id differs from the deleted one. The list never grows. |
| Feed.WithoutIdConcat | frontend/src/components/posts.jsx:101 | Filtering distributes over concatenation, so the kept posts keep their relative order. |
| Feed.WithoutIdLength | frontend/src/components/posts.jsx:101 | Exactly the posts with the deleted id are removed. |
| Feed.Delete | frontend/src/components/posts.jsx:85-105 | Nothing is requested or changed without confirmation. A confirmed delete sends `DELETE /posts/{id}` with the bearer header. Success filters the list. A failure keeps the list and alerts "Error: Failed to delete post" or "Error: " with the thrown message. |
| Feed.DeleteRemovesOne | frontend/src/components/posts.jsx:99-101 | With unique ids, deleting a listed post leaves one post fewer and none with its id. |
| Feed.AnonymousSeesNoControls | frontend/src/components/posts.jsx:17-27 | Without a token no user id is decoded. So no post with an author shows edit or delete controls, and the add-post link is hidden. |
| Feed.ControlsOnlyForAuthor | frontend/src/components/posts.jsx:181 | A post with an author id shows its controls iff a token was present and its decoded `user_id` is strictly equal to that id. |
| Feed.ShowsControls | frontend/src/components/posts.jsx:181 | Strict equality: equal values always match, a `null` user id never matches an author, a number never matches a non-number and a string never matches a non-string, and two numbers or two strings match iff they are equal. |
| Feed.ShowsAddPost | frontend/src/components/posts.jsx:120-124 | In the list or empty view the add-post link shows iff the user id is truthy: never for `null`, `undefined`, `0` or `''`, always for any other number or string. The spinner and the error panel have no link. |
| Feed.TextClaimNeverMatchesNumericAuthor | frontend/src/components/posts.jsx:120-181 | Under strict equality a `user_id` claim that decodes as a non-empty string never shows the controls of a post with a numeric author id. Once the first page has arrived, the list or empty view still carries the add-post link. |
| Feed.Render | frontend/src/components/posts.jsx:107-144 | The spinner shows iff loading with an empty list. Otherwise the error panel shows iff an error is set, and it shows that error's text. The list view shows iff neither applies and the list is non-empty, and it shows exactly the state's posts and `hasMore`. The list and empty views carry the add-post link iff the user id is truthy. |
| Feed.AfterFetchView | frontend/src/components/posts.jsx:107-118 | Once a fetch resolves the spinner never shows again. A refused fetch shows the error panel with "Failed to fetch posts". |
| Feed.ErrorIsSticky | frontend/src/components/posts.jsx:67-68 | Once recorded, an error is never cleared by later fetches. |
| PostEditor.ValidateSchema | frontend/src/components/AddPost.jsx:21-25 | A title error iff the title is empty, and a content error iff the content is empty. An image error iff no image is picked while not editing. The errors read "Title is required", "Content is required" and "Image is required". |
| PostEditor.Updates | frontend/src/components/AddPost.jsx:146-149 | The editor patches exactly when it is editing a post whose id is truthy. A post with id 0 is created anew. |
| PostEditor.KeptImageUrl | frontend/src/components/AddPost.jsx:119 | Without a new image the write keeps the edited post's image URL, and has none when no post is edited. |
| PostEditor.InitialValues | frontend/src/components/AddPost.jsx:28-32 | Title and content come from the edited post, else empty. There is never an image. |
| PostEditor.InitialValuesValidity | frontend/src/components/AddPost.jsx:21-32 | An edited post with title and content can be resubmitted unchanged. A new post cannot be submitted before an image is picked. |
| PostEditor.UploadImage | frontend/src/components/AddPost.jsx:40-82 | The upload succeeds iff a file of at most 5 MiB is picked, is read, and the host answers ok, and the URL is then the host's. A missing file fails with the unprefixed "No image file provided" and one over 5 MiB with the unprefixed size message, both before anything is requested. A failed read fails without a message and without a request. A request that fails always carries the prefix "Image upload failed: ". |
| PostEditor.Submit | frontend/src/components/AddPost.jsx:105-170 | No upload or write while the schema reports errors, and the banner then keeps its previous text. An upload happens iff an image was picked, and a failed upload aborts the write and shows its message. The write carries the new image URL, else the edited post's one. It is PATCH to the post iff editing a post with a truthy id, else POST to `/posts`. Success goes to `/posts`. A refusal shows the server's message or the mode's fallback. Loading ends. |
| PostEditor.CreateRoundTrip | frontend/src/components/AddPost.jsx:114-163 | A complete new post with an image of at most 5 MiB produces one `POST /posts` carrying the host's URL, then the feed. |
| PostEditor.BlockedResubmitKeepsBanner | frontend/src/components/AddPost.jsx:105-116 | After a refused create shows "Failed to create post", a resubmit with the title cleared writes nothing and the banner still shows that text. |
| PostEditor.OversizedImageAbortsWrite | frontend/src/components/AddPost.jsx:42-49 | An image one byte over 5 MiB never reaches the host, no post is written, and the unprefixed size message is shown. |
| Routes.MatchesIffPattern | frontend/src/App.jsx:41-60 | For a lower-case pattern, the matching decision holds iff the location, lower-cased, is the pattern followed by any number of `/`. |
| Routes.Guarded | frontend/src/App.jsx:22-35 | A guard only ever shows the page it wraps. It redirects exactly a signed-out user on a protected route and a signed-in user on a sign-in route, so a public route always shows. A signed-in user is only redirected to `/posts`, a signed-out one only to `/login`. |
| Routes.IsAuthenticated | frontend/src/App.jsx:17-18 | A missing and an empty `access` cookie both read as signed out, and any other value reads as signed in. |
| Routes.Select | frontend/src/App.jsx:41-60 | The route chosen matches the location. When none is chosen, no route of the table matches. |
| Routes.Resolve | frontend/src/App.jsx:41-60 | The not-found page renders iff no pattern of the table matches. A redirect goes to `/posts` when signed in and to `/login` otherwise. The editor renders only when signed in. |
| Routes.FeedIsPublic | frontend/src/App.jsx:42-48 | `/` and `/posts` render the feed whether or not the user is signed in. |
| Routes.EditorNeedsSignIn | frontend/src/App.jsx:49-53 | `/add-post` renders the editor when signed in, else redirects to `/login`. |
| Routes.FormsNeedSignOut | frontend/src/App.jsx:43-58 | `/login` and `/register` render their forms when signed out, else redirect to `/posts`. |
| Routes.UnknownIsNotFound | frontend/src/App.jsx:59 | The not-found page renders iff the location matches no pattern of the table. |
| Routes.DistinctPatterns | frontend/src/App.jsx:41-59 | No location matches two patterns of the table. |
| Routes.RedirectTarget | frontend/src/App.jsx:22-35 | A signed-out user is only redirected to `/login`, and a signed-in one only to `/posts`. |
| Routes.NoRedirectLoops | frontend/src/App.jsx:22-58 | Every redirect lands on a location that shows a page, neither the editor nor not-found, under the same flag. |
| Routes.Settle | frontend/src/App.jsx:22-35 | The final location is the redirect's target when `path` redirects, and `path` itself otherwise, not-found included. That location shows the page reported. |
| Routes.SettleForms | frontend/src/App.jsx:43-58 | Signed in, `/login` and `/register` settle on the feed at `/posts`. Signed out, they settle on their own forms. |
| Routes.SettleFeedAndEditor | frontend/src/App.jsx:48-53 | `/posts` settles on the feed. Signed in, `/add-post` settles on the editor; signed out, it settles on the login form. |
| Routes.EditorOnlyAtAddPost | frontend/src/App.jsx:49-53 | The editor renders only for a signed-in user at a location matching `/add-post`. The same location sends a signed-out user to `/login`. |
| Routes.AsWrittenLoadNeverOpensEditor | frontend/src/App.jsx:13-19 | As written, a full page load never ends on the editor, whatever the cookie holds. |
| Routes.LoadAsWritten | frontend/src/App.jsx:13-27 | A load as written ends where its final location shows the page reported. That location is the requested one or one of the two redirect targets, and a location that shows a page on the first render stays put or moves to `/posts`. |
| Routes.SignedInReloadOfEditorLandsOnFeed | frontend/src/App.jsx:13-27 | As written, a reload of `/add-post` with any non-empty `access` cookie ends on the feed at `/posts`. With the flag read before the first render it ends on the editor. |
| Routes.IntendedLoadGuardsEditor | frontend/src/App.jsx:13-27 | With the flag read before the first render, a page load opens the editor iff the location matches `/add-post` and the user is signed in. |
| PostViews.HasPermission | backend/posts/views.py:11-23 | `IsAuthenticated` grants iff signed in. `IsAuthenticatedOrReadOnly` grants iff signed in or the method is safe. `IsAuthorOrReadOnly` grants every request at view level. |
| PostViews.HasObjectPermission | backend/posts/views.py:14-18 | Safe methods (GET, HEAD, OPTIONS) are always granted. Any other method is granted iff the requester is the post's author, which the anonymous user never is. |
| PostViews.Deny | backend/posts/views.py:55-58 | A refusal is "not authenticated" iff the requester is anonymous, else "permission denied". |
| PostViews.CheckPermissions | backend/posts/views.py:55-58 | No refusal iff every listed class grants. A refusal is the one that fits the requester. |
| PostViews.Dispatch | backend/posts/views.py:20-58 | 405 only for a method without a handler, and 404 only for a lookup that found no post. Proceeding means every view-level class granted. |
| PostViews.PostListAccess | backend/posts/views.py:20-23 | The list proceeds iff the method is one of GET, HEAD, POST and OPTIONS and it is safe or the user is signed in. An anonymous write is not authenticated. A signed-in PUT, PATCH or DELETE is 405. |
| PostViews.AnonymousReadsButCannotCreate | backend/posts/views.py:20-23 | Anonymous GET and HEAD of the list proceed. An anonymous POST is refused as not authenticated. |
| PostViews.PostDetailAccess | backend/posts/views.py:55-58 | The detail view refuses every anonymous method, reads included. Then POST is 405, OPTIONS needs no post, and a missing post is 404. A write by anyone but the author is permission denied. It proceeds exactly in the remaining cases. |
| PostViews.OnlyAuthorWrites | backend/posts/views.py:14-18 | An unsafe method passes the detail view iff it is not POST and the requester is the post's author. |
| PostViews.Status | backend/posts/views.py:41-53 | A create answers 201 exactly when it created the post, and 500 exactly on a server error. |
| PostViews.Create | backend/posts/views.py:28-53 | Created iff validation and saving both succeed. The post then has the body's fields and the requesting user as author. Any exception yields "Internal server error" with the exception's text as details. |
| PostViews.InternalError | backend/posts/views.py:47-53 | The handler for a caught exception answers 500 and carries the exception's text as details. |
| PostViews.ListCreate | backend/posts/views.py:20-53 | An anonymous POST is refused as not authenticated. A signed-in one is handled by `create`. |
| PostViews.AuthorIsRequester | backend/posts/views.py:25-26 | For a fixed serializer verdict, the author named in the body never changes the answer. A created post's author is always the requester. |
| PostViews.CreateIsCreatedOrServerError | backend/posts/views.py:28-53 | A signed-in create answers 201 or 500 and nothing else. It answers 500 iff validation or saving raised. |
| EndToEnd.ClientReply | frontend/src/components/AddPost.jsx:157-160 | The client treats exactly the 2xx statuses as success. Every failure arrives without a `message`, since the API's error bodies carry none. |
| EndToEnd.FailedCreateShowsFallback | frontend/src/components/AddPost.jsx:151-165 | A create the API answers with 500 shows "Failed to create post" in the editor. The exception's details are never shown. |
| EndToEnd.ForeignEditShowsFallback | frontend/src/components/AddPost.jsx:142-165 | A PATCH of a stored post by someone other than its author is permission denied. The editor of that post, with a truthy id, sends its PATCH to that post and shows "Failed to update post". |
| EndToEnd.RegisteredCredentialsPassLogin | frontend/src/components/Register.jsx:75-131 | Whenever a registration submit posts credentials, the username and password it sends pass the login form's checks. |
| EndToEnd.NavigateAfterMount | frontend/src/App.jsx:15-19 | A client-side navigation settles under the flag read at mount, on a location that shows the page reported. |
| EndToEnd.SignInThenAddPostAsWritten | frontend/src/App.jsx:13-19 | After a valid sign-in within one page load, the feed's list or empty view shows the add-post link once the first page arrives, yet following it lands on the login form. |
| EndToEnd.SignInThenAddPostIntended | frontend/src/App.jsx:13-27 | With the guards reading the current cookie, a sign-in opens the editor at `/add-post`, and the sign-in forms go to the feed. |

## Left out

- Network I/O, JSON parsing and the image host's endpoint are not modelled. Each awaited request is a `Reply`: ok, not-ok with the failure text read from the body if any, or a thrown error's message.
- FileReader, base64 encoding and the image preview are browser I/O. A failed read is one boolean, and it rejects with a value that has no message.
- The cookie's 7-day expiry and its storage are not modelled. The session is an `Option<string>`.
- JWT decoding is not modelled. The decoded `user_id` claim is an input, `None` when decoding throws.
- The client clock is not modelled. The date sent with a post is a parameter.
- Infinite-scroll timing is not modelled. Load-more rounds are modelled strictly in sequence, and concurrent or re-entrant loads with stale closures are not.
- The navigation bar, the not-found page, JSX markup, CSS classes and the hard-coded image-host key are not modelled.
- Django URL routing (`urls.py`), the `Post` model's column limits and the serializer are not part of this model. The serializer's validation and the database save enter `create` only as optional exception texts.
- The REST framework's authentication step is not modelled. A bad or expired token is answered 401 before any permission class runs.
- Throttling, content negotiation and the pagination settings that would interpret `limit`/`offset` are also not modelled.
- PostViews.Status: the 401 for an anonymous refusal assumes a token authenticator that sends a `WWW-Authenticate` header. With session authentication first, the answer would be 403. The project's settings are not part of this model.
- EndToEnd.ClientReply: it assumes that no error body of the posts API has a `message` key. The framework's own errors use `detail`, and `create` uses `error` and `details`.
- PostViews.AuthorIsRequester: the body's author is irrelevant only for a fixed serializer verdict. A serializer with a writable, validated `author` field could reject one body and accept the other; the serializer is not part of this model.
- Routes.MatchesIffPattern: react-router's percent-decoding of the location, and case folding beyond ASCII, are not modelled.
- Routes.Settle: it follows at most one redirect. No-redirect-loops shows that one is always enough.

## Findings

| source | as written | input that shows it | evidently intended | confidence | as-written member | corrected member |
|---|---|---|---|---|---|---|
| frontend/src/App.jsx:13-19 | The guard flag starts `false` and is set from the cookie in a mount effect. The `<Navigate>` rendered in the first render fires before that effect. | Reload `/add-post` with a non-empty `access` cookie: `/add-post` redirects to `/login` under `false`, then `/login` redirects to `/posts` under `true`, and the page lands on the feed. | A signed-in reload of `/add-post` shows the editor. | medium, not executed | Routes.SignedInReloadOfEditorLandsOnFeed | Routes.IntendedLoadGuardsEditor |
| frontend/src/App.jsx:15-19 | The flag is read once, because the effect has an empty dependency list. Signing in navigates client-side and does not remount the shell. | Load `/login` signed out and sign in. The feed then shows "Add Post", but following it redirects to `/login` and shows the login form again. | After a sign-in, `/add-post` opens the editor. | high, not executed | EndToEnd.SignInThenAddPostAsWritten | EndToEnd.SignInThenAddPostIntended |

=== FILE: app.dfy ===
/** The application shell (frontend/src/App.jsx): the authentication flag read
    from the `access` cookie, the two route guards, and the route table, with
    react-router's matching of a location against a literal route pattern. */
module Routes {
  import opened Common

  // ---------------------------------------------------------------------------
  // Path matching
  // ---------------------------------------------------------------------------

  function Slashes(k: nat): (s: string)
    ensures |s| == k && forall i :: 0 <= i < k ==> s[i] == '/'
  {
    seq(k, _ => '/')
  }

  /** A literal route pattern matches a location when, ignoring ASCII case, the
      location is the pattern followed by any number of `/`: react-router
      compiles a literal pattern to a case-insensitive expression anchored at both
      ends that admits any run of trailing slashes. */
  ghost predicate MatchesPattern(path: string, pattern: string) {
    exists k: nat :: Lower(path) == pattern + Slashes(k)
  }

  /** `s` without its trailing `/` characters. */
  function TrimSlashes(s: string): (t: string)
    ensures t <= s
    ensures t == [] || t[|t| - 1] != '/'
    ensures s == t + Slashes(|s| - |t|)
  {
    if s == [] || s[|s| - 1] != '/' then s
    else
      var t := TrimSlashes(s[..|s| - 1]);
      assert s == s[..|s| - 1] + ['/'];
      assert s[..|s| - 1] == t + Slashes(|s| - 1 - |t|);
      assert Slashes(|s| - 1 - |t|) + ['/'] == Slashes(|s| - |t|);
      t
  }

  /** Trimming a string that does not end in `/` and then gained slashes gives it back. */
  lemma {:induction false} TrimUnique(x: string, m: nat)
    requires x == [] || x[|x| - 1] != '/'
    ensures TrimSlashes(x + Slashes(m)) == x
  {
    if m > 0 {
      var s := x + Slashes(m);
      assert s[..|s| - 1] == x + Slashes(m - 1);
      TrimUnique(x, m - 1);
    } else {
      assert x + Slashes(0) == x;
    }
  }

  lemma TrimAppendedSlashes(p: string, k: nat)
    ensures TrimSlashes(p + Slashes(k)) == TrimSlashes(p)
  {
    var q := TrimSlashes(p);
    var n := |p| - |q|;
    assert p == q + Slashes(n);
    SlashesAdd(n, k);
    calc {
      p + Slashes(k);
      (q + Slashes(n)) + Slashes(k);
      q + (Slashes(n) + Slashes(k));
      q + Slashes(n + k);
    }
    TrimUnique(q, n + k);
  }

  /** The decision the shell takes: compare the trimmed, lower-cased location
      with the trimmed pattern, and require the location to be at least as long. */
  predicate Matches(path: string, pattern: string) {
    TrimSlashes(Lower(path)) == TrimSlashes(pattern) && |path| >= |pattern|
  }

  lemma {:induction false} SlashesAdd(a: nat, b: nat)
    ensures Slashes(a) + Slashes(b) == Slashes(a + b)
  {
  }

  /** For a lower-case pattern, the decision agrees with react-router's matching. */
  lemma MatchesIffPattern(path: string, pattern: string)
    requires Lower(pattern) == pattern
    ensures Matches(path, pattern) <==> MatchesPattern(path, pattern)
  {
    var l := Lower(path);
    if MatchesPattern(path, pattern) {
      var k: nat :| l == pattern + Slashes(k);
      TrimAppendedSlashes(pattern, k);
    }
    if Matches(path, pattern) {
      var q := TrimSlashes(pattern);
      assert l == q + Slashes(|l| - |q|);
      assert pattern == q + Slashes(|pattern| - |q|);
      var k := |l| - |pattern|;
      SlashesAdd(|pattern| - |q|, k);
      assert l == pattern + Slashes(k);
    }
  }

  // ---------------------------------------------------------------------------
  // The route table (App.jsx:21-61)
  // ---------------------------------------------------------------------------

  datatype Page = FeedPage | LoginPage | RegisterPage | EditorPage | NotFoundPage

  /** What a route renders: a page, or a `<Navigate>` to another location. */
  datatype Element = Show(page: Page) | Redirect(to: string)

  /** `Public`: no wrapper; `AuthRoute`: only while signed out; `ProtectedRoute`:
      only while signed in. */
  datatype Guard = Public | AuthRoute | ProtectedRoute

  datatype Route = Route(pattern: string, guard: Guard, page: Page)

  /** The `<Routes>` children; every other location falls to `path='*'`. */
  const Table: seq<Route> := [
    Route("/", Public, FeedPage),
    Route("/login", AuthRoute, LoginPage),
    Route("/posts", Public, FeedPage),
    Route("/add-post", ProtectedRoute, EditorPage),
    Route("/register", AuthRoute, RegisterPage)
  ]

  /** `!!Cookies.get('access')`: a missing cookie and an empty one both read as signed out. */
  function IsAuthenticated(token: Option<string>): (signedIn: bool)
    ensures token.None? ==> !signedIn
    ensures token == Some("") ==> !signedIn
    ensures token.Some? && token.value != "" ==> signedIn
  {
    PresentText(token)
  }

  /** A guard wrapping `page`: `ProtectedRoute` sends a signed-out user to
      `/login`, `AuthRoute` sends a signed-in one to `/posts`. */
  function Guarded(g: Guard, page: Page, authenticated: bool): (e: Element)
    ensures e.Show? ==> e.page == page
    ensures e.Redirect? <==> (g == ProtectedRoute && !authenticated) || (g == AuthRoute && authenticated)
    ensures e.Redirect? ==> e.to == (if authenticated then "/posts" else "/login")
  {
    match g
    case Public => Show(page)
    case ProtectedRoute => if !authenticated then Redirect("/login") else Show(page)
    case AuthRoute => if authenticated then Redirect("/posts") else Show(page)
  }

  /** The first route of `routes` whose pattern matches `path`, if any. */
  function Select(path: string, routes: seq<Route>): (r: Option<Route>)
    ensures r.Some? ==> r.value in routes && Matches(path, r.value.pattern)
    ensures r.None? ==> forall i :: 0 <= i < |routes| ==> !Matches(path, routes[i].pattern)
  {
    if routes == [] then None
    else if Matches(path, routes[0].pattern) then Some(routes[0])
    else Select(path, routes[1..])
  }

  /** The element the shell renders at `path`: the guarded page of the first
      route that matches, else the not-found page. */
  function Resolve(path: string, authenticated: bool): (e: Element)
    ensures e == Show(NotFoundPage) <==> forall i :: 0 <= i < |Table| ==> !Matches(path, Table[i].pattern)
    ensures e.Redirect? ==> e.to == (if authenticated then "/posts" else "/login")
    ensures e == Show(EditorPage) ==> authenticated
  {
    match Select(path, Table)
    case None => Show(NotFoundPage)
    case Some(route) => Guarded(route.guard, route.page, authenticated)
  }

  /** A pattern without upper-case letters and without a trailing `/`, as every
      pattern of the table is, matches itself. */
  lemma MatchesItself(pattern: string)
    requires pattern != [] && pattern[|pattern| - 1] != '/'
    requires forall i :: 0 <= i < |pattern| ==> !IsUpper(pattern[i])
    ensures Matches(pattern, pattern)
  {
    assert Lower(pattern) == pattern;
  }

  /** The table's patterns are lower-case. */
  lemma TableIsLowerCase(i: int)
    requires 0 <= i < |Table|
    ensures Lower(Table[i].pattern) == Table[i].pattern
  {
    var p := Table[i].pattern;
    assert forall j :: 0 <= j < |p| ==> !IsUpper(p[j]);
    assert Lower(p) == p;
  }

  /** When route `i` is the first that matches, it is the one selected. */
  lemma {:induction false} SelectFirst(path: string, routes: seq<Route>, i: int)
    requires 0 <= i < |routes| && Matches(path, routes[i].pattern)
    requires forall j :: 0 <= j < i ==> !Matches(path, routes[j].pattern)
    ensures Select(path, routes) == Some(routes[i])
  {
    if i > 0 {
      assert !Matches(path, routes[0].pattern);
      SelectFirst(path, routes[1..], i - 1);
    }
  }

  /** A location that matches route `i` renders that route's guarded page. */
  lemma ResolveRoute(path: string, authenticated: bool, i: int)
    requires 0 <= i < |Table| && MatchesPattern(path, Table[i].pattern)
    ensures Resolve(path, authenticated) == Guarded(Table[i].guard, Table[i].page, authenticated)
  {
    TableIsLowerCase(i);
    MatchesIffPattern(path, Table[i].pattern);
    DistinctPatterns(path);
    SelectFirst(path, Table, i);
  }

  /** `/` and `/posts` render the feed whether or not the user is signed in. */
  lemma FeedIsPublic(path: string, authenticated: bool)
    requires MatchesPattern(path, "/") || MatchesPattern(path, "/posts")
    ensures Resolve(path, authenticated) == Show(FeedPage)
  {
    if MatchesPattern(path, "/") {
      ResolveRoute(path, authenticated, 0);
    } else {
      ResolveRoute(path, authenticated, 2);
    }
  }

  /** `/add-post` renders the editor for a signed-in user and sends anyone else to `/login`. */
  lemma EditorNeedsSignIn(path: string, authenticated: bool)
    requires MatchesPattern(path, "/add-post")
    ensures Resolve(path, authenticated) == (if authenticated then Show(EditorPage) else Redirect("/login"))
  {
    ResolveRoute(path, authenticated, 3);
  }

  /** `/login` and `/register` render their forms for a signed-out user and send
      a signed-in one to `/posts`. */
  lemma FormsNeedSignOut(path: string, authenticated: bool)
    requires MatchesPattern(path, "/login") || MatchesPattern(path, "/register")
    ensures MatchesPattern(path, "/login") ==>
              Resolve(path, authenticated) == (if authenticated then Redirect("/posts") else Show(LoginPage))
    ensures MatchesPattern(path, "/register") ==>
              Resolve(path, authenticated) == (if authenticated then Redirect("/posts") else Show(RegisterPage))
  {
    if MatchesPattern(path, "/login") {
      SignInFormRoute(path, authenticated, 1);
    }
    if MatchesPattern(path, "/register") {
      SignInFormRoute(path, authenticated, 4);
    }
  }

  /** One of the two sign-in form routes, resolved at a matching location. */
  lemma SignInFormRoute(path: string, authenticated: bool, i: int)
    requires i == 1 || i == 4
    requires MatchesPattern(path, Table[i].pattern)
    ensures Resolve(path, authenticated) == (if authenticated then Redirect("/posts") else Show(Table[i].page))
  {
    ResolveRoute(path, authenticated, i);
  }

  /** A location matching no pattern of the table, and only such a location,
      renders the not-found page. */
  lemma UnknownIsNotFound(path: string, authenticated: bool)
    ensures Resolve(path, authenticated) == Show(NotFoundPage) <==>
              forall i :: 0 <= i < |Table| ==> !MatchesPattern(path, Table[i].pattern)
  {
    forall i | 0 <= i < |Table|
      ensures Matches(path, Table[i].pattern) <==> MatchesPattern(path, Table[i].pattern)
    {
      TableIsLowerCase(i);
      MatchesIffPattern(path, Table[i].pattern);
    }
    var r := Select(path, Table);
    if r.Some? {
      assert Guarded(r.value.guard, r.value.page, authenticated) != Show(NotFoundPage);
    }
  }

  /** No location matches two patterns of the table. */
  lemma DistinctPatterns(path: string)
    ensures forall i, j :: 0 <= i < j < |Table| && Matches(path, Table[i].pattern)
              ==> !Matches(path, Table[j].pattern)
  {
  }

  /** A signed-out user is only ever redirected to `/login`, a signed-in one
      only to `/posts`. */
  lemma RedirectTarget(path: string, authenticated: bool)
    ensures Resolve(path, authenticated).Redirect? ==>
              Resolve(path, authenticated).to == (if authenticated then "/posts" else "/login")
  {
  }

  /** The two redirect targets, resolved under the flag that sends users there. */
  lemma TargetsResolve(authenticated: bool)
    ensures Resolve("/login", authenticated) == (if authenticated then Redirect("/posts") else Show(LoginPage))
    ensures Resolve("/posts", authenticated) == Show(FeedPage)
  {
    MatchesItself(Table[1].pattern);
    MatchesItself(Table[2].pattern);
    ResolveLiteral("/login", authenticated, 1);
    ResolveLiteral("/posts", authenticated, 2);
  }

  /** Every redirect lands on a location that renders a page under the same
      authentication state, so the guards never loop. */
  lemma NoRedirectLoops(path: string, authenticated: bool)
    requires Resolve(path, authenticated).Redirect?
    ensures Resolve(Resolve(path, authenticated).to, authenticated).Show?
    ensures Resolve(Resolve(path, authenticated).to, authenticated) != Show(NotFoundPage)
    ensures Resolve(Resolve(path, authenticated).to, authenticated) != Show(EditorPage)
  {
    RedirectTarget(path, authenticated);
    TargetsResolve(authenticated);
  }

  /** A pattern of the table, taken as a location, renders its own route. */
  lemma ResolveLiteral(path: string, authenticated: bool, i: int)
    requires 0 <= i < |Table| && path == Table[i].pattern && Matches(path, path)
    ensures Resolve(path, authenticated) == Guarded(Table[i].guard, Table[i].page, authenticated)
  {
    DistinctPatterns(path);
    SelectFirst(path, Table, i);
  }

  // ---------------------------------------------------------------------------
  // Loading the application (App.jsx:12-19)
  // ---------------------------------------------------------------------------

  /** The location and page a render settles on once the shell has followed
      the (at most one) redirect under a fixed authentication flag. */
  function Settle(path: string, authenticated: bool): (r: (string, Page))
    ensures Resolve(r.0, authenticated) == Show(r.1)
    ensures r.0 == (if Resolve(path, authenticated).Redirect? then Resolve(path, authenticated).to else path)
  {
    match Resolve(path, authenticated)
    case Show(page) => (path, page)
    case Redirect(to) =>
      NoRedirectLoops(path, authenticated);
      (to, Resolve(to, authenticated).page)
  }

  /** Loading the application at `path` as written: the first render uses the
      initial `isAuthenticated` of `false`, and a `<Navigate>` it renders fires
      before the mount effect reads the cookie, so the next render sees the
      real flag at the redirected location. */
  function LoadAsWritten(path: string, token: Option<string>): (r: (string, Page))
    ensures Resolve(r.0, IsAuthenticated(token)) == Show(r.1)
    ensures r.0 == path || r.0 == "/login" || r.0 == "/posts"
    ensures Resolve(path, false).Show? ==> r.0 == path || r.0 == "/posts"
  {
    var first := Resolve(path, false);
    var here := if first.Redirect? then first.to else path;
    Settle(here, IsAuthenticated(token))
  }

  /** `/add-post`, resolved as a location. */
  lemma EditorLiteralResolves(authenticated: bool)
    ensures Resolve("/add-post", authenticated) ==
              (if authenticated then Show(EditorPage) else Redirect("/login"))
  {
    MatchesItself(Table[3].pattern);
    ResolveLiteral("/add-post", authenticated, 3);
  }

  /** `/register`, resolved as a location. */
  lemma RegisterLiteralResolves(authenticated: bool)
    ensures Resolve("/register", authenticated) ==
              (if authenticated then Redirect("/posts") else Show(RegisterPage))
  {
    MatchesItself(Table[4].pattern);
    ResolveLiteral("/register", authenticated, 4);
  }

  /** Where the sign-in forms' locations settle, for either flag. */
  lemma SettleForms(authenticated: bool)
    ensures Settle("/login", authenticated) ==
              (if authenticated then ("/posts", FeedPage) else ("/login", LoginPage))
    ensures Settle("/register", authenticated) ==
              (if authenticated then ("/posts", FeedPage) else ("/register", RegisterPage))
  {
    TargetsResolve(authenticated);
    RegisterLiteralResolves(authenticated);
    if authenticated {
      assert Resolve("/login", authenticated) == Redirect("/posts");
      assert Resolve("/register", authenticated) == Redirect("/posts");
    }
  }

  /** Where the feed's and the editor's locations settle, for either flag. */
  lemma SettleFeedAndEditor(authenticated: bool)
    ensures Settle("/posts", authenticated) == ("/posts", FeedPage)
    ensures Settle("/add-post", authenticated) ==
              (if authenticated then ("/add-post", EditorPage) else ("/login", LoginPage))
  {
    TargetsResolve(authenticated);
    EditorLiteralResolves(authenticated);
    if !authenticated {
      assert Resolve("/add-post", authenticated) == Redirect("/login");
    }
  }

  /** Loading the application when the flag is read from the cookie before the
      first render, as the guards evidently intend. */
  function LoadIntended(path: string, token: Option<string>): (string, Page) {
    Settle(path, IsAuthenticated(token))
  }

  /** As written, a page load never opens the editor, even for a signed-in user. */
  lemma AsWrittenLoadNeverOpensEditor(path: string, token: Option<string>)
    ensures LoadAsWritten(path, token).1 != EditorPage
  {
    var authenticated := IsAuthenticated(token);
    var first := Resolve(path, false);
    RedirectTarget(path, false);
    TargetsResolve(authenticated);
    EditorOnlyAtAddPost(path, authenticated);
    if Resolve(path, authenticated).Redirect? {
      NoRedirectLoops(path, authenticated);
    }
  }

  /** Only the protected route renders the editor, and only for a signed-in user. */
  lemma EditorOnlyAtAddPost(path: string, authenticated: bool)
    ensures Resolve(path, authenticated) == Show(EditorPage) ==>
              MatchesPattern(path, "/add-post") && authenticated && Resolve(path, false) == Redirect("/login")
  {
    if Resolve(path, authenticated) == Show(EditorPage) {
      var r := Select(path, Table);
      assert r.value in Table;
      assert r.value == Table[3];
      TableIsLowerCase(3);
      MatchesIffPattern(path, "/add-post");
    }
  }

  /** A signed-in user who reloads `/add-post` ends on the feed, whatever the
      (non-empty) token. */
  lemma SignedInReloadOfEditorLandsOnFeed(token: Option<string>)
    requires PresentText(token)
    ensures LoadAsWritten("/add-post", token) == ("/posts", FeedPage)
    ensures LoadIntended("/add-post", token) == ("/add-post", EditorPage)
  {
    assert IsAuthenticated(token);
    EditorLiteralResolves(false);
    SettleForms(true);
    SettleFeedAndEditor(true);
  }

  /** With the flag read before the first render, a page load opens the editor
      exactly for a signed-in user at `/add-post`. */
  lemma IntendedLoadGuardsEditor(path: string, token: Option<string>)
    ensures LoadIntended(path, token).1 == EditorPage <==>
              MatchesPattern(path, "/add-post") && IsAuthenticated(token)
  {
    var authenticated := IsAuthenticated(token);
    if Resolve(path, authenticated).Redirect? {
      NoRedirectLoops(path, authenticated);
    }
    EditorOnlyAtAddPost(path, authenticated);
    if MatchesPattern(path, "/add-post") {
      EditorNeedsSignIn(path, authenticated);
    }
  }
}

=== FILE: common.dfy ===
/** The JavaScript vocabulary the client components share: truthiness of the
    values they test, the UTF-16 length that `String.prototype.length` reports,
    the ASCII character classes their regular expressions use, the `a || b`
    fallback idiom for error texts, and the outcome of one awaited `fetch`. */
module Common {

  datatype Option<+T> = None | Some(value: T)

  /** An HTTP method, as the client sends it and the backend dispatches on it. */
  datatype HttpMethod = GET | HEAD | OPTIONS | POST | PUT | PATCH | DELETE

  /** The outcome of one awaited `fetch` together with reading its JSON body:
      - `Ok`: the status was 2xx and the body held `data`;
      - `NotOk`: a non-2xx status; `message` is the failure text the caller reads from the body, if any;
      - `Thrown`: the request or the JSON parse threw an error whose `message` is `reason`. */
  datatype Reply<+T> = Ok(data: T) | NotOk(message: Option<string>) | Thrown(reason: string)

  /** A string is truthy in JavaScript exactly when it is not empty. */
  predicate Truthy(s: string) {
    s != ""
  }

  /** A possibly missing string (`undefined` or `null` as `None`) is truthy
      exactly when it is present and not empty. */
  predicate PresentText(o: Option<string>) {
    o.Some? && Truthy(o.value)
  }

  /** The value of `o || fallback` for a possibly missing string `o`. */
  function OrElse(o: Option<string>, fallback: string): (r: string)
    ensures PresentText(o) ==> r == o.value
    ensures !PresentText(o) ==> r == fallback
    ensures Truthy(fallback) ==> Truthy(r)
  {
    if PresentText(o) then o.value else fallback
  }

  /** A value interpolated into a template literal: `undefined` prints as "undefined". */
  function TemplateText(o: Option<string>): (r: string)
    ensures o.Some? ==> r == o.value
    ensures o.None? ==> r == "undefined"
  {
    match o
    case Some(s) => s
    case None => "undefined"
  }

  /** Number of UTF-16 code units in one character. */
  function Utf16Units(c: char): nat {
    if c as int > 0xFFFF then 2 else 1
  }

  /** `s.length` in JavaScript: the number of UTF-16 code units of `s`. */
  function Utf16Length(s: string): (n: nat)
    ensures |s| <= n <= 2 * |s|
    ensures n == 0 <==> s == ""
  {
    if s == [] then 0 else Utf16Units(s[0]) + Utf16Length(s[1..])
  }

  predicate IsUpper(c: char) { 'A' <= c <= 'Z' }

  predicate IsLower(c: char) { 'a' <= c <= 'z' }

  predicate IsDigit(c: char) { '0' <= c <= '9' }

  /** `[A-Z]` under the `i` flag: in a non-Unicode regular expression only ASCII
      letters fold onto ASCII letters. */
  predicate IsLetter(c: char) { IsUpper(c) || IsLower(c) }

  predicate IsAlnum(c: char) { IsLetter(c) || IsDigit(c) }

  /** ASCII lower-casing, the folding a case-insensitive non-Unicode pattern applies. */
  function LowerChar(c: char): (d: char)
    ensures IsUpper(c) ==> IsLower(d)
    ensures !IsUpper(c) ==> d == c
  {
    if IsUpper(c) then (c as int + 32) as char else c
  }

  function Lower(s: string): (t: string)
    ensures |t| == |s|
    ensures forall i :: 0 <= i < |s| ==> t[i] == LowerChar(s[i])
  {
    seq(|s|, i requires 0 <= i < |s| => LowerChar(s[i]))
  }
}

=== FILE: editor.dfy ===
/** The post editor (frontend/src/components/AddPost.jsx): its validation
    schema, its initial values, the image upload, and the submit handler that
    uploads an image, then creates or updates the post. */
module PostEditor {
  import opened Common
  import Feed

  /** A file picked in the image input; only its size in bytes matters here. */
  datatype ImageFile = ImageFile(size: nat)

  datatype Values = Values(title: string, content: string, image: Option<ImageFile>)

  /** `location.state`: the editing flag and the post handed over by the feed's
      edit button; both absent when the editor is opened from the add-post link. */
  datatype Context = Context(isEditing: bool, postToEdit: Option<Feed.Post>)

  datatype Field = Title | Content | Image

  /** `PostSchema`: title and content are required; the image is required
      unless a post is being edited. */
  function ValidateSchema(ctx: Context, v: Values): (errors: map<Field, string>)
    ensures Title in errors <==> v.title == ""
    ensures Content in errors <==> v.content == ""
    ensures Image in errors <==> !ctx.isEditing && v.image.None?
    ensures Title in errors ==> errors[Title] == "Title is required"
    ensures Content in errors ==> errors[Content] == "Content is required"
    ensures Image in errors ==> errors[Image] == "Image is required"
  {
    var e0: map<Field, string> := map[];
    var e1 := if v.title == "" then e0[Title := "Title is required"] else e0;
    var e2 := if v.content == "" then e1[Content := "Content is required"] else e1;
    if !ctx.isEditing && v.image.None? then e2[Image := "Image is required"] else e2
  }

  /** `initialValues`: the edited post's title and content, else empty; never an image. */
  function InitialValues(ctx: Context): (v: Values)
    ensures v.image.None?
    ensures ctx.postToEdit.None? ==> v.title == "" && v.content == ""
    ensures ctx.postToEdit.Some? ==>
              v.title == ctx.postToEdit.value.title && v.content == ctx.postToEdit.value.content
  {
    match ctx.postToEdit
    case None => Values("", "", None)
    case Some(p) => Values(p.title, p.content, None)
  }

  /** Editing a post that has a title and content can be submitted unchanged;
      a new post cannot be submitted before an image is picked. */
  lemma InitialValuesValidity(ctx: Context)
    ensures ctx.isEditing && ctx.postToEdit.Some? && ctx.postToEdit.value.title != ""
            && ctx.postToEdit.value.content != ""
            ==> ValidateSchema(ctx, InitialValues(ctx)) == map[]
    ensures !ctx.isEditing ==> Image in ValidateSchema(ctx, InitialValues(ctx))
  {
  }

  /** 5 MiB, the largest image the editor uploads. */
  const MaxImageBytes: nat := 5 * 1024 * 1024

  /** The outcome of `uploadImage`: the hosted URL, or the failure whose `message`
      becomes the banner (`None` for a thrown value without a message), and
      whether a request was sent to the image host. */
  datatype Upload = Uploaded(url: string) | UploadFailed(message: Option<string>, requested: bool)

  /** `uploadImage`: a missing file and a file over 5 MiB are rejected before
      anything is read or sent, with unprefixed messages; a failed file read
      rejects with a value that has no message; every failure of the request
      itself is re-thrown with the prefix `Image upload failed: `. */
  function UploadImage(file: Option<ImageFile>, readOk: bool, host: Reply<string>): (u: Upload)
    ensures u.Uploaded? <==> file.Some? && file.value.size <= MaxImageBytes && readOk && host.Ok?
    ensures u.Uploaded? ==> u.url == host.data
    ensures file.None? ==> u == UploadFailed(Some("No image file provided"), false)
    ensures file.Some? && file.value.size <= MaxImageBytes && !readOk ==> u == UploadFailed(None, false)
    ensures u.UploadFailed? && u.requested <==> file.Some? && file.value.size <= MaxImageBytes && readOk && !host.Ok?
    ensures file.Some? && file.value.size > MaxImageBytes ==>
              u == UploadFailed(Some("Image size must be less than 5MB"), false)
    ensures u.UploadFailed? && u.requested ==>
              u.message.Some? && UploadPrefix <= u.message.value
  {
    match file
    case None => UploadFailed(Some("No image file provided"), false)
    case Some(f) =>
      if f.size > MaxImageBytes then UploadFailed(Some("Image size must be less than 5MB"), false)
      else if !readOk then UploadFailed(None, false)
      else match host
        case Ok(url) => Uploaded(url)
        case NotOk(m) => UploadFailed(Some(UploadPrefix + OrElse(m, "Failed to upload image")), true)
        case Thrown(reason) => UploadFailed(Some(UploadPrefix + reason), true)
  }

  const UploadPrefix := "Image upload failed: "

  /** Where the post is written. */
  datatype Target = PostsCollection | PostItem(id: int)

  /** The write request: method, target, `Authorization` header and the JSON body. */
  datatype WriteRequest = WriteRequest(
    verb: HttpMethod, target: Target, authorization: string,
    title: string, content: string, date: string, imageUrl: Option<string>)

  /** What a submit leaves behind: the field errors that blocked it, the
      upload's outcome if one was attempted, the write issued if any, the
      banner (`None` when `error` is `null` or `undefined`), the navigation,
      and the loading flag. */
  datatype Outcome = Outcome(
    fieldErrors: map<Field, string>, upload: Option<Upload>, write: Option<WriteRequest>,
    error: Option<string>, navigateTo: Option<string>, loading: bool)

  /** `isEditing && postId`: an update needs the flag and a truthy post id. */
  function Updates(ctx: Context): (patch: bool)
    ensures patch ==> ctx.isEditing && ctx.postToEdit.Some?
    ensures ctx.postToEdit.Some? && ctx.postToEdit.value.id == 0 ==> !patch
    ensures ctx.isEditing && ctx.postToEdit.Some? && ctx.postToEdit.value.id != 0 ==> patch
  {
    ctx.isEditing && ctx.postToEdit.Some? && ctx.postToEdit.value.id != 0
  }

  /** The image URL sent when no new image was picked: the edited post's one, if any. */
  function KeptImageUrl(ctx: Context): (url: Option<string>)
    ensures ctx.postToEdit.None? ==> url.None?
    ensures ctx.postToEdit.Some? ==> url == ctx.postToEdit.value.imageUrl
  {
    match ctx.postToEdit
    case None => None
    case Some(p) => p.imageUrl
  }

  /** Formik's submit: nothing runs while the schema reports errors, so the
      banner keeps `prevError`, the text it showed before; otherwise `onSubmit`
      clears the banner, uploads a picked image first, aborting on failure, then writes
      the post with the new or the kept image URL, and navigates to the feed
      on success or shows the error. `today` stands for the client clock's date. */
  function Submit(ctx: Context, v: Values, prevError: Option<string>, token: Option<string>, today: string,
                  readOk: bool, host: Reply<string>, server: Reply<()>): (o: Outcome)
    ensures o.fieldErrors == ValidateSchema(ctx, v)
    ensures o.fieldErrors != map[] ==> o.upload.None? && o.write.None? && o.navigateTo.None?
    ensures o.fieldErrors != map[] ==> o.error == prevError
    ensures o.upload.Some? <==> o.fieldErrors == map[] && v.image.Some?
    ensures o.upload.Some? ==> o.upload.value == UploadImage(v.image, readOk, host)
    ensures o.upload.Some? && o.upload.value.UploadFailed? ==>
              o.write.None? && o.navigateTo.None? && o.error == o.upload.value.message
    ensures o.write.Some? <==> o.fieldErrors == map[] && (o.upload.None? || o.upload.value.Uploaded?)
    ensures o.write.Some? ==>
              && o.write.value.title == v.title && o.write.value.content == v.content
              && o.write.value.date == today
              && o.write.value.authorization == "Bearer " + TemplateText(token)
              && o.write.value.imageUrl == (if v.image.Some? then Some(host.data) else KeptImageUrl(ctx))
              && (o.write.value.verb == PATCH <==> Updates(ctx))
              && (Updates(ctx) ==> o.write.value.target == PostItem(ctx.postToEdit.value.id))
              && (!Updates(ctx) ==> o.write.value == o.write.value.(verb := POST, target := PostsCollection))
    ensures o.navigateTo.Some? <==> o.write.Some? && server.Ok?
    ensures o.navigateTo.Some? ==> o.navigateTo.value == "/posts" && o.error.None?
    ensures o.write.Some? && server.NotOk? ==>
              o.error == Some(OrElse(server.message,
                                     if ctx.isEditing then "Failed to update post" else "Failed to create post"))
    ensures o.write.Some? && server.Thrown? ==> o.error == Some(server.reason)
    ensures !o.loading
  {
    var errors := ValidateSchema(ctx, v);
    if errors != map[] then Outcome(errors, None, None, prevError, None, false)
    else
      var upload := if v.image.Some? then Some(UploadImage(v.image, readOk, host)) else None;
      if upload.Some? && upload.value.UploadFailed? then
        Outcome(errors, upload, None, upload.value.message, None, false)
      else
        var imageUrl := if upload.Some? then Some(upload.value.url) else KeptImageUrl(ctx);
        var verb := if Updates(ctx) then PATCH else POST;
        var target := if Updates(ctx) then PostItem(ctx.postToEdit.value.id) else PostsCollection;
        var write := WriteRequest(verb, target, "Bearer " + TemplateText(token), v.title, v.content, today, imageUrl);
        match server
        case Ok(_) => Outcome(errors, upload, Some(write), None, Some("/posts"), false)
        case NotOk(m) =>
          var fallback := if ctx.isEditing then "Failed to update post" else "Failed to create post";
          Outcome(errors, upload, Some(write), Some(OrElse(m, fallback)), None, false)
        case Thrown(reason) => Outcome(errors, upload, Some(write), Some(reason), None, false)
  }

  /** Creating a post with a title, content and an image of at most 5 MiB,
      when the host and the server both succeed: one `POST /posts` carrying the
      URL the host returned, then the feed. */
  lemma CreateRoundTrip(title: string, content: string, size: nat, token: Option<string>,
                        today: string, url: string)
    requires title != "" && content != "" && size <= MaxImageBytes
    ensures var o := Submit(Context(false, None), Values(title, content, Some(ImageFile(size))), None,
                            token, today, true, Ok(url), Ok(()));
            && o.write.Some? && o.write.value.verb == POST && o.write.value.target == PostsCollection
            && o.write.value.imageUrl == Some(url)
            && o.navigateTo == Some("/posts") && o.error.None?
  {
  }

  /** A create the server refuses leaves its fallback banner; clearing the
      title and submitting again is blocked by the schema, so `onSubmit` does not
      run and the banner still shows the earlier failure. */
  lemma BlockedResubmitKeepsBanner(v: Values, token: Option<string>, today: string,
                                   readOk: bool, host: Reply<string>, server: Reply<()>)
    requires v.title != "" && v.content != "" && v.image.Some?
    requires readOk && host.Ok? && v.image.value.size <= MaxImageBytes
    ensures var first := Submit(Context(false, None), v, None, token, today, readOk, host, NotOk(None));
            var again := Submit(Context(false, None), v.(title := ""), first.error, token, today, readOk, host, server);
            && first.error == Some("Failed to create post")
            && again.write.None? && again.error == Some("Failed to create post")
  {
  }

  /** An image one byte over 5 MiB never reaches the host and no post is written. */
  lemma OversizedImageAbortsWrite(ctx: Context, title: string, content: string, prevError: Option<string>,
                                  token: Option<string>,
                                  today: string, readOk: bool, host: Reply<string>, server: Reply<()>)
    requires title != "" && content != ""
    ensures var o := Submit(ctx, Values(title, content, Some(ImageFile(MaxImageBytes + 1))), prevError,
                            token, today, readOk, host, server);
            && o.upload == Some(UploadFailed(Some("Image size must be less than 5MB"), false))
            && o.write.None? && o.navigateTo.None?
            && o.error == Some("Image size must be less than 5MB")
  {
  }
}

=== FILE: email.dfy ===
/** The registration form's e-mail shape, `^[A-Z0-9._%+-]+@[A-Z0-9.-]+\.[A-Z]{2,}$`
    with the `i` flag (frontend/src/components/Register.jsx:89). It is given twice:
    as the grammar the pattern denotes (some split of the text into local part,
    `@`, host, `.`, top-level label) and as a decision procedure that locates the
    `@` and the last `.`; the two are proved to agree on every string. */
module EmailRule {
  import opened Common

  /** `[A-Z0-9._%+-]` under the `i` flag. */
  predicate IsLocalChar(c: char) {
    IsAlnum(c) || c == '.' || c == '_' || c == '%' || c == '+' || c == '-'
  }

  /** `[A-Z0-9.-]` under the `i` flag. */
  predicate IsHostChar(c: char) {
    IsAlnum(c) || c == '.' || c == '-'
  }

  predicate AllLocal(s: string) {
    forall i :: 0 <= i < |s| ==> IsLocalChar(s[i])
  }

  predicate AllHost(s: string) {
    forall i :: 0 <= i < |s| ==> IsHostChar(s[i])
  }

  predicate AllLetters(s: string) {
    forall i :: 0 <= i < |s| ==> IsLetter(s[i])
  }

  /** The pattern matches `s` with its `@` at index `at` and its `\.` at index `dot`. */
  ghost predicate SplitsAt(s: string, at: int, dot: int) {
    && 0 < at < dot < |s|
    && AllLocal(s[..at])
    && s[at] == '@'
    && at + 1 < dot
    && AllHost(s[at + 1..dot])
    && s[dot] == '.'
    && |s| - (dot + 1) >= 2
    && AllLetters(s[dot + 1..])
  }

  /** The set of strings the regular expression accepts. */
  ghost predicate MatchesPattern(s: string) {
    exists at, dot :: SplitsAt(s, at, dot)
  }

  /** Index of the first occurrence of `c` in `s`. */
  function IndexOf(s: string, c: char): (r: Option<nat>)
    ensures r.Some? ==> r.value < |s| && s[r.value] == c
    ensures r.Some? ==> forall j :: 0 <= j < r.value ==> s[j] != c
    ensures r.None? ==> forall j :: 0 <= j < |s| ==> s[j] != c
  {
    if s == [] then None
    else if s[0] == c then Some(0)
    else match IndexOf(s[1..], c)
      case None => None
      case Some(k) => Some(k + 1)
  }

  /** Index of the last occurrence of `c` in `s`. */
  function LastIndexOf(s: string, c: char): (r: Option<nat>)
    ensures r.Some? ==> r.value < |s| && s[r.value] == c
    ensures r.Some? ==> forall j :: r.value < j < |s| ==> s[j] != c
    ensures r.None? ==> forall j :: 0 <= j < |s| ==> s[j] != c
  {
    if s == [] then None
    else if s[|s| - 1] == c then Some(|s| - 1)
    else LastIndexOf(s[..|s| - 1], c)
  }

  /** The shape read directly: exactly one `@`; a non-empty local part over the
      local characters; a host over the host characters whose last `.` is not its
      first character and is followed by at least two letters up to the end. */
  predicate IsEmail(s: string) {
    match IndexOf(s, '@')
    case None => false
    case Some(at) =>
      var host := s[at + 1..];
      && at > 0
      && AllLocal(s[..at])
      && AllHost(host)
      && match LastIndexOf(host, '.')
         case None => false
         case Some(dot) => dot > 0 && |host| - (dot + 1) >= 2 && AllLetters(host[dot + 1..])
  }

  /** A matching e-mail holds exactly one `@`: neither character class contains it. */
  lemma ExactlyOneAt(s: string, at: int, dot: int)
    requires SplitsAt(s, at, dot)
    ensures forall j :: 0 <= j < |s| && s[j] == '@' ==> j == at
  {
    forall j | 0 <= j < at
      ensures s[j] != '@'
    {
      assert s[j] == s[..at][j];
    }
    forall j | at < j < dot
      ensures s[j] != '@'
    {
      assert s[j] == s[at + 1..dot][j - at - 1];
    }
    forall j | dot < j < |s|
      ensures s[j] != '@'
    {
      assert s[j] == s[dot + 1..][j - dot - 1];
    }
  }

  /** Every string the decision procedure accepts is matched by the pattern. */
  lemma IsEmailSound(s: string)
    requires IsEmail(s)
    ensures MatchesPattern(s)
  {
    var at := IndexOf(s, '@').value;
    var host := s[at + 1..];
    var k := LastIndexOf(host, '.').value;
    var dot := at + 1 + k;
    assert s[at + 1..dot] == host[..k];
    assert s[dot + 1..] == host[k + 1..];
    assert SplitsAt(s, at, dot);
  }

  /** Within a matched host-dot-label suffix the marked `.` is the last one. */
  lemma LastDotOfHost(host: string, k: int)
    requires 0 <= k < |host| && host[k] == '.'
    requires AllLetters(host[k + 1..])
    ensures LastIndexOf(host, '.') == Some(k)
  {
    forall j | k < j < |host|
      ensures host[j] != '.'
    {
      assert host[j] == host[k + 1..][j - k - 1];
    }
  }

  /** Every string the pattern matches is accepted by the decision procedure. */
  lemma IsEmailComplete(s: string, at: int, dot: int)
    requires SplitsAt(s, at, dot)
    ensures IsEmail(s)
  {
    ExactlyOneAt(s, at, dot);
    assert IndexOf(s, '@') == Some(at);
    var host := s[at + 1..];
    var k := dot - at - 1;
    assert host[..k] == s[at + 1..dot];
    assert host[k + 1..] == s[dot + 1..];
    forall i | 0 <= i < |host|
      ensures IsHostChar(host[i])
    {
      if i < k {
        assert host[i] == host[..k][i];
      } else if i > k {
        assert host[i] == host[k + 1..][i - k - 1];
      }
    }
    LastDotOfHost(host, k);
  }

  /** The decision procedure accepts exactly the strings the pattern matches. */
  lemma IsEmailMatchesPattern(s: string)
    ensures IsEmail(s) <==> MatchesPattern(s)
  {
    if IsEmail(s) {
      IsEmailSound(s);
    }
    if MatchesPattern(s) {
      var at, dot :| SplitsAt(s, at, dot);
      IsEmailComplete(s, at, dot);
    }
  }
}

=== FILE: end_to_end.dfy ===
/** Properties that span the client and the posts API: how the backend's
    answers reach the editor's banner, and how a sign-in reaches the route
    guards of the application shell. */
module EndToEnd {
  import opened Common
  import Login
  import Register
  import Routes
  import Feed
  import PostEditor
  import PostViews

  /** How the client reads an answer of the posts API: a 2xx status is ok; the
      error bodies the API sends name `error`, `details` or `detail` but never
      `message`, so a failure reaches the client without a message. */
  function ClientReply(status: nat): (r: Reply<()>)
    ensures r.Ok? <==> 200 <= status < 300
    ensures r.NotOk? <==> !(200 <= status < 300)
    ensures r.NotOk? ==> r.message.None?
  {
    if 200 <= status < 300 then Ok(()) else NotOk(None)
  }

  /** A create the API turns into a 500 reaches the editor as the generic
      banner: the exception's text in `details` is never shown. */
  lemma FailedCreateShowsFallback(user: PostViews.UserId, body: PostViews.Body, invalid: Option<string>,
                                  saveFailure: Option<string>, newId: nat, v: PostEditor.Values,
                                  prevError: Option<string>, token: Option<string>, today: string, url: string)
    requires invalid.Some? || saveFailure.Some?
    requires v.title != "" && v.content != "" && v.image.Some? && v.image.value.size <= PostEditor.MaxImageBytes
    ensures var server := ClientReply(PostViews.Status(PostViews.ListCreate(Some(user), body, invalid, saveFailure, newId)));
            var o := PostEditor.Submit(PostEditor.Context(false, None), v, prevError, token, today, true, Ok(url), server);
            && o.write.Some? && o.write.value.verb == POST
            && o.error == Some("Failed to create post") && o.navigateTo.None?
  {
    var r := PostViews.ListCreate(Some(user), body, invalid, saveFailure, newId);
    PostViews.CreateIsCreatedOrServerError(user, body, invalid, saveFailure, newId);
    assert PostViews.Status(r) == 500;
  }

  /** An edit submitted by someone other than the post's author is refused by
      the detail view, and the editor shows its update fallback. */
  lemma ForeignEditShowsFallback(user: PostViews.UserId, obj: PostViews.PostRecord, post: Feed.Post,
                                 v: PostEditor.Values, prevError: Option<string>, token: Option<string>, today: string,
                                 readOk: bool, host: Reply<string>)
    requires obj.author != user && post.id != 0 && obj.id == post.id
    ensures var d := PostViews.Dispatch(PostViews.PostDetail, PATCH, Some(user), Some(obj));
            && d == PostViews.Refused(PostViews.PermissionDenied)
            && var server := ClientReply(PostViews.Status(PostViews.Denied(d.refusal)));
               var o := PostEditor.Submit(PostEditor.Context(true, Some(post)), v, prevError, token, today, readOk, host, server);
               o.write.Some? ==> && o.write.value.verb == PATCH && o.write.value.target == PostEditor.PostItem(post.id)
                                 && o.error == Some("Failed to update post") && o.navigateTo.None?
  {
    PostViews.PostDetailAccess(PATCH, Some(user), Some(obj));
  }

  /** Formik submits only a form without errors, so the credentials a
      registration sends always pass the login form's own checks. */
  lemma RegisteredCredentialsPassLogin(v: Register.Values, prevBanner: string, reply: Reply<()>)
    ensures var sent := Register.Submit(v, prevBanner, reply).sent;
            sent.Some? ==> Login.Validate(sent.value.username, sent.value.password) == map[]
  {
    if Register.Validate(v) == map[] {
      assert Register.Username !in Register.Validate(v);
      assert Register.Password !in Register.Validate(v);
      Login.RegisterAcceptedPasswordsLogIn(v.password);
    }
  }

  // ---------------------------------------------------------------------------
  // Signing in within one page load
  // ---------------------------------------------------------------------------

  /** A client-side navigation to `path` after the shell has mounted: the
      shell read its flag from the cookie once, at mount, and resolves every
      later location under that flag, whatever the cookie holds now; the
      current cookie is therefore not an argument. */
  function NavigateAfterMount(cookieAtMount: Option<string>, path: string): (r: (string, Routes.Page))
    ensures Routes.Resolve(r.0, Routes.IsAuthenticated(cookieAtMount)) == Routes.Show(r.1)
  {
    Routes.Settle(path, Routes.IsAuthenticated(cookieAtMount))
  }

  /** As written: a user who loads the application signed out, signs in, and
      follows the feed's add-post link (drawn once the first page has arrived,
      because the feed decodes the new token when it mounts) is sent back to
      the login form. */
  lemma SignInThenAddPostAsWritten(s: Login.State, username: string, password: string, access: string,
                                   uid: int, page: seq<Feed.Post>)
    requires Login.Validate(username, password) == map[]
    requires access != "" && uid != 0
    ensures var s' := Login.Submit(s, username, password, Ok(Login.Tokens(access)));
            var feed := Feed.Render(Feed.Receive(Feed.Mount(s'.session, Some(Feed.Num(uid))).0, true, Ok(page)));
            && s'.session == Some(access)
            && s'.navigateTo == Some("/posts")
            && NavigateAfterMount(None, "/posts") == ("/posts", Routes.FeedPage)
            && (feed.NoPosts? || feed.PostList?) && feed.addPost
            && NavigateAfterMount(None, "/add-post") == ("/login", Routes.LoginPage)
  {
    Routes.SettleFeedAndEditor(false);
  }

  /** Intended, with the guards reading the cookie as it is when they render:
      after a sign-in with a non-empty token the add-post link opens the
      editor, and the sign-in forms send the user to the feed. */
  lemma SignInThenAddPostIntended(s: Login.State, username: string, password: string, access: string)
    requires Login.Validate(username, password) == map[]
    requires access != ""
    ensures var session := Login.Submit(s, username, password, Ok(Login.Tokens(access))).session;
            && Routes.LoadIntended("/add-post", session) == ("/add-post", Routes.EditorPage)
            && Routes.LoadIntended("/login", session) == ("/posts", Routes.FeedPage)
            && Routes.LoadIntended("/register", session) == ("/posts", Routes.FeedPage)
  {
    var session := Login.Submit(s, username, password, Ok(Login.Tokens(access))).session;
    assert Routes.IsAuthenticated(session);
    Routes.SettleFeedAndEditor(true);
    Routes.SettleForms(true);
  }
}

=== FILE: login.dfy ===
/** The login form (frontend/src/components/Login.jsx): its two field checks and
    what a submit does to the stored session, the banner and the route. */
module Login {
  import opened Common
  import Register

  /** `validatePassword`: required, then at least eight code units; no
      character-class rules. */
  function ValidatePassword(p: string): (r: Option<string>)
    ensures r == Some(Register.Required) <==> p == ""
    ensures r == Some(Register.PasswordTooShort) <==> 1 <= Utf16Length(p) < 8
    ensures r.None? <==> Utf16Length(p) >= 8
  {
    if !Truthy(p) then Some(Register.Required)
    else if Utf16Length(p) < 8 then Some(Register.PasswordTooShort)
    else None
  }

  /** Every password the registration form accepts passes the login check too. */
  lemma RegisterAcceptedPasswordsLogIn(p: string)
    requires Register.ValidatePassword(p).None?
    ensures ValidatePassword(p).None?
  {
    assert Register.Holds(Register.RuleOrder[1], p);
  }

  datatype Field = Username | Password

  /** The `validate` callback: a username error exactly when it is empty, a
      password error exactly when the password check fails. */
  function Validate(username: string, password: string): (errors: map<Field, string>)
    ensures Username in errors <==> username == ""
    ensures Username in errors ==> errors[Username] == Register.Required
    ensures Password in errors <==> Utf16Length(password) < 8
    ensures Password in errors ==> Some(errors[Password]) == ValidatePassword(password)
  {
    var e: map<Field, string> := if !Truthy(username) then map[Username := Register.Required] else map[];
    match ValidatePassword(password)
    case Some(m) => e[Password := m]
    case None => e
  }

  /** The login endpoint's success body: the bearer token under `access`. */
  datatype Tokens = Tokens(access: string)

  /** The client's view after a submit: the `access` cookie, the banner text,
      where the router was sent, and whether the form is still submitting. */
  datatype State = State(session: Option<string>, banner: string, navigateTo: Option<string>, submitting: bool)

  /** Formik's submit of `username` and `password`: while `validate` reports
      errors `onSubmit` does not run and nothing changes. Otherwise the banner
      is cleared first; success stores `data.access` as the session and goes to
      the feed; a failure leaves the session alone and shows the server's
      message, else a fallback. */
  function Submit(s: State, username: string, password: string, reply: Reply<Tokens>): (s': State)
    ensures Validate(username, password) != map[] ==> s' == s
    ensures Validate(username, password) == map[] && reply.Ok? ==>
              s'.session == Some(reply.data.access) && s'.navigateTo == Some("/posts") && s'.banner == ""
    ensures !reply.Ok? ==> s'.session == s.session && s'.navigateTo == s.navigateTo
    ensures Validate(username, password) == map[] && reply.NotOk? ==>
              s'.banner == OrElse(reply.message, "Login failed")
    ensures Validate(username, password) == map[] && reply.Thrown? ==>
              s'.banner == OrElse(Some(reply.reason), "An error occurred during login")
    ensures Validate(username, password) == map[] && !reply.Ok? ==> Truthy(s'.banner)
    ensures Validate(username, password) == map[] ==> !s'.submitting
  {
    if Validate(username, password) != map[] then s
    else
    var cleared := s.(banner := "", submitting := true);
    match reply
    case Ok(tokens) =>
      cleared.(session := Some(tokens.access), navigateTo := Some("/posts"), submitting := false)
    case NotOk(m) =>
      cleared.(banner := OrElse(Some(OrElse(m, "Login failed")), "An error occurred during login"),
               submitting := false)
    case Thrown(reason) =>
      cleared.(banner := OrElse(Some(reason), "An error occurred during login"), submitting := false)
  }

  /** The banner left by a submit that passes validation depends only on the
      reply, never on the banner an earlier submit left behind; a submit that
      validation blocks leaves the earlier banner showing. */
  lemma BannerClearedOnSubmit(s: State, t: State, username: string, password: string, reply: Reply<Tokens>)
    ensures Validate(username, password) == map[] ==>
              Submit(s, username, password, reply).banner == Submit(t, username, password, reply).banner
    ensures Validate(username, password) != map[] ==> Submit(s, username, password, reply).banner == s.banner
  {
  }
}

=== FILE: posts.dfy ===
/** The post feed (frontend/src/components/posts.jsx): the list state, the page
    requests of the infinite scroll, how fetched pages are merged, deleting a
    post, which controls a post shows, and which view the component renders. */
module Feed {
  import opened Common

  /** A JavaScript value in an id slot: `null` (the initial `currentUserId`),
      `undefined` (a decoded token without a `user_id` claim), a number, or a
      string (a claim or an author id serialised as text). */
  datatype JsId = Null | Undefined | Num(n: int) | Str(s: string)

  /** `null`, `undefined`, `0` and `''` are falsy. */
  predicate IdTruthy(v: JsId) {
    (v.Num? && v.n != 0) || (v.Str? && v.s != "")
  }

  datatype Post = Post(
    id: int, title: string, content: string, date: string,
    imageUrl: Option<string>, authorId: JsId, authorUsername: string)

  const PostsPerPage: nat := 6

  /** `GET /posts?limit=…&offset=…`, with the `Authorization` header when a token is present. */
  datatype PageRequest = PageRequest(limit: nat, offset: int, authorization: Option<string>)

  datatype FeedState = FeedState(
    posts: seq<Post>, loading: bool, error: Option<string>,
    currentUserId: JsId, hasMore: bool, page: int)

  /** The component's initial `useState` values. */
  const Initial := FeedState([], true, None, Null, true, 1)

  /** The request `fetchPosts` issues for page `pageNum`. */
  function RequestFor(token: Option<string>, pageNum: int): (q: PageRequest)
    ensures q.limit == PostsPerPage
    ensures q.offset == (pageNum - 1) * PostsPerPage
    ensures q.authorization.Some? <==> PresentText(token)
    ensures q.authorization.Some? ==> q.authorization.value == "Bearer " + token.value
  {
    PageRequest(PostsPerPage, (pageNum - 1) * PostsPerPage,
                if PresentText(token) then Some("Bearer " + token.value) else None)
  }

  /** The mount effect: with a truthy token, a successful decode (`Some`) sets
      `currentUserId` to its `user_id` claim and a failed one (`None`) leaves it
      `null`; then the first page is requested for an initial load. */
  function Mount(token: Option<string>, decoded: Option<JsId>): (r: (FeedState, PageRequest))
    ensures r.1 == RequestFor(token, 1)
    ensures r.0.currentUserId != Null ==> PresentText(token) && decoded == Some(r.0.currentUserId)
    ensures PresentText(token) && decoded.Some? ==> r.0.currentUserId == decoded.value
    ensures r.0 == Initial.(currentUserId := r.0.currentUserId)
  {
    var user := if PresentText(token) && decoded.Some? then decoded.value else Null;
    (Initial.(currentUserId := user), RequestFor(token, 1))
  }

  /** `fetchPosts` resolving: an initial load replaces the list, a later one
      appends to it; `hasMore` is whether the page was full; a failure records
      its message and keeps the list; loading ends either way. */
  function Receive(s: FeedState, isInitial: bool, reply: Reply<seq<Post>>): (s': FeedState)
    ensures !s'.loading
    ensures s'.currentUserId == s.currentUserId && s'.page == s.page
    ensures reply.Ok? && isInitial ==> s'.posts == reply.data
    ensures reply.Ok? && !isInitial ==> s'.posts == s.posts + reply.data
    ensures reply.Ok? ==> s'.hasMore == (|reply.data| == PostsPerPage) && s'.error == s.error
    ensures !reply.Ok? ==> s'.posts == s.posts && s'.hasMore == s.hasMore && s'.error.Some?
    ensures reply.NotOk? ==> s'.error == Some("Failed to fetch posts")
    ensures reply.Thrown? ==> s'.error == Some(reply.reason)
  {
    match reply
    case Ok(data) =>
      s.(posts := if isInitial then data else s.posts + data,
         hasMore := |data| == PostsPerPage, loading := false)
    case NotOk(_) => s.(error := Some("Failed to fetch posts"), loading := false)
    case Thrown(reason) => s.(error := Some(reason), loading := false)
  }

  /** `loadMorePosts`: advance the page counter by one and request that page. */
  function LoadMore(s: FeedState, token: Option<string>): (r: (FeedState, PageRequest))
    ensures r.0 == s.(page := s.page + 1)
    ensures r.1.offset == s.page * PostsPerPage && r.1.limit == PostsPerPage
  {
    (s.(page := s.page + 1), RequestFor(token, s.page + 1))
  }

  /** `|rs|` load-more rounds, each answered by the next reply in `rs`. */
  function Rounds(s: FeedState, token: Option<string>, rs: seq<Reply<seq<Post>>>): FeedState
    decreases |rs|
  {
    if rs == [] then s
    else Rounds(Receive(LoadMore(s, token).0, false, rs[0]), token, rs[1..])
  }

  /** The page requests those rounds issue, in order. */
  function RoundRequests(s: FeedState, token: Option<string>, rs: seq<Reply<seq<Post>>>): seq<PageRequest>
    decreases |rs|
  {
    if rs == [] then []
    else
      var (next, q) := LoadMore(s, token);
      [q] + RoundRequests(Receive(next, false, rs[0]), token, rs[1..])
  }

  /** Every request of a run: the initial load, then one per load-more round. */
  function RunRequests(token: Option<string>, decoded: Option<JsId>, first: Reply<seq<Post>>,
                       rs: seq<Reply<seq<Post>>>): seq<PageRequest>
  {
    var (s, q) := Mount(token, decoded);
    [q] + RoundRequests(Receive(s, true, first), token, rs)
  }

  /** The state at the end of a run. */
  function RunState(token: Option<string>, decoded: Option<JsId>, first: Reply<seq<Post>>,
                    rs: seq<Reply<seq<Post>>>): FeedState
  {
    Rounds(Receive(Mount(token, decoded).0, true, first), token, rs)
  }

  /** Each round advances the page by one, whatever its reply. */
  lemma {:induction false} RoundsAdvancePage(s: FeedState, token: Option<string>, rs: seq<Reply<seq<Post>>>)
    ensures Rounds(s, token, rs).page == s.page + |rs|
    ensures |RoundRequests(s, token, rs)| == |rs|
    ensures forall i :: 0 <= i < |rs| ==>
              RoundRequests(s, token, rs)[i].offset == (s.page + i) * PostsPerPage
    ensures forall i :: 0 <= i < |rs| ==> RoundRequests(s, token, rs)[i].limit == PostsPerPage
    decreases |rs|
  {
    if rs != [] {
      var next := Receive(LoadMore(s, token).0, false, rs[0]);
      RoundsAdvancePage(next, token, rs[1..]);
      var tail := RoundRequests(next, token, rs[1..]);
      assert RoundRequests(s, token, rs) == [LoadMore(s, token).1] + tail;
      forall i | 1 <= i < |rs|
        ensures RoundRequests(s, token, rs)[i].offset == (s.page + i) * PostsPerPage
      {
        assert RoundRequests(s, token, rs)[i] == tail[i - 1];
      }
    }
  }

  /** The requests of a run ask for windows `[0,6)`, `[6,12)`, …: request `i`
      starts where request `i - 1` ends, so the windows are contiguous and disjoint. */
  lemma RunWindowsContiguous(token: Option<string>, decoded: Option<JsId>, first: Reply<seq<Post>>,
                             rs: seq<Reply<seq<Post>>>)
    ensures |RunRequests(token, decoded, first, rs)| == |rs| + 1
    ensures forall i :: 0 <= i < |rs| + 1 ==>
              RunRequests(token, decoded, first, rs)[i].offset == i * PostsPerPage
              && RunRequests(token, decoded, first, rs)[i].limit == PostsPerPage
    ensures forall i :: 0 < i < |rs| + 1 ==>
              RunRequests(token, decoded, first, rs)[i].offset
              == RunRequests(token, decoded, first, rs)[i - 1].offset
                 + RunRequests(token, decoded, first, rs)[i - 1].limit
  {
    var s := Receive(Mount(token, decoded).0, true, first);
    RoundsAdvancePage(s, token, rs);
    var all := RunRequests(token, decoded, first, rs);
    assert all == [Mount(token, decoded).1] + RoundRequests(s, token, rs);
    forall i | 0 < i < |rs| + 1
      ensures all[i].offset == i * PostsPerPage && all[i].limit == PostsPerPage
    {
      assert all[i] == RoundRequests(s, token, rs)[i - 1];
    }
  }

  /** All the posts of a sequence of pages, in order. */
  function Flatten(pages: seq<seq<Post>>): seq<Post> {
    if pages == [] then [] else pages[0] + Flatten(pages[1..])
  }

  function SumLengths(pages: seq<seq<Post>>): nat {
    if pages == [] then 0 else |pages[0]| + SumLengths(pages[1..])
  }

  lemma {:induction false} FlattenLength(pages: seq<seq<Post>>)
    ensures |Flatten(pages)| == SumLengths(pages)
  {
    if pages != [] {
      FlattenLength(pages[1..]);
    }
  }

  /** The replies of a run when every fetch succeeds with the given pages. */
  function Answers(pages: seq<seq<Post>>): (rs: seq<Reply<seq<Post>>>)
    ensures |rs| == |pages|
    ensures forall i :: 0 <= i < |pages| ==> rs[i] == Ok(pages[i])
  {
    seq(|pages|, i requires 0 <= i < |pages| => Ok(pages[i]))
  }

  /** When every round succeeds, the list is the old list followed by the pages
      in the order they arrived; `hasMore` reflects the last page only. */
  lemma {:induction false} RoundsAppendPages(s: FeedState, token: Option<string>, pages: seq<seq<Post>>)
    ensures Rounds(s, token, Answers(pages)).posts == s.posts + Flatten(pages)
    ensures Rounds(s, token, Answers(pages)).error == s.error
    ensures pages != [] ==>
              Rounds(s, token, Answers(pages)).hasMore == (|pages[|pages| - 1]| == PostsPerPage)
    decreases |pages|
  {
    if pages != [] {
      var next := Receive(LoadMore(s, token).0, false, Ok(pages[0]));
      assert Answers(pages)[1..] == Answers(pages[1..]);
      RoundsAppendPages(next, token, pages[1..]);
      assert s.posts + pages[0] + Flatten(pages[1..]) == s.posts + Flatten(pages);
    }
  }

  /** A run of successful fetches: the list is the concatenation of the pages
      fetched, its length is the sum of their lengths, and `hasMore` holds
      exactly when the last page fetched was full. */
  lemma RunConcatenatesPages(token: Option<string>, decoded: Option<JsId>, first: seq<Post>,
                             pages: seq<seq<Post>>)
    ensures RunState(token, decoded, Ok(first), Answers(pages)).posts == Flatten([first] + pages)
    ensures |RunState(token, decoded, Ok(first), Answers(pages)).posts| == SumLengths([first] + pages)
    ensures RunState(token, decoded, Ok(first), Answers(pages)).hasMore
              == (|([first] + pages)[|pages|]| == PostsPerPage)
    ensures RunState(token, decoded, Ok(first), Answers(pages)).error.None?
  {
    var s := Receive(Mount(token, decoded).0, true, Ok(first));
    RoundsAppendPages(s, token, pages);
    assert ([first] + pages)[1..] == pages;
    FlattenLength([first] + pages);
  }

  // ---------------------------------------------------------------------------
  // Deleting a post (posts.jsx:85-105)
  // ---------------------------------------------------------------------------

  /** `posts.filter(post => post.id !== postId)` */
  function WithoutId(ps: seq<Post>, id: int): (r: seq<Post>)
    ensures |r| <= |ps|
    ensures forall p :: p in r <==> p in ps && p.id != id
  {
    if ps == [] then []
    else if ps[0].id != id then [ps[0]] + WithoutId(ps[1..], id)
    else WithoutId(ps[1..], id)
  }

  /** Filtering commutes with concatenation, so the kept posts stay in their
      original relative order. */
  lemma {:induction false} WithoutIdConcat(a: seq<Post>, b: seq<Post>, id: int)
    ensures WithoutId(a + b, id) == WithoutId(a, id) + WithoutId(b, id)
  {
    if a != [] {
      assert (a + b)[1..] == a[1..] + b;
      WithoutIdConcat(a[1..], b, id);
    } else {
      assert a + b == b;
    }
  }

  /** The number of posts in `ps` with id `id`. */
  function CountId(ps: seq<Post>, id: int): nat {
    if ps == [] then 0 else (if ps[0].id == id then 1 else 0) + CountId(ps[1..], id)
  }

  /** Exactly the posts with the id are removed; with ids unique and the id
      present, the list shrinks by one. */
  lemma {:induction false} WithoutIdLength(ps: seq<Post>, id: int)
    ensures |WithoutId(ps, id)| == |ps| - CountId(ps, id)
    ensures (exists i :: 0 <= i < |ps| && ps[i].id == id) <==> CountId(ps, id) > 0
  {
    if ps != [] {
      WithoutIdLength(ps[1..], id);
      if ps[0].id != id && CountId(ps, id) > 0 {
        var i :| 0 <= i < |ps[1..]| && ps[1..][i].id == id;
        assert ps[i + 1].id == id;
      }
      if ps[0].id != id && (exists i :: 0 <= i < |ps| && ps[i].id == id) {
        var i :| 0 <= i < |ps| && ps[i].id == id;
        assert ps[1..][i - 1].id == id;
      }
    }
  }

  predicate UniqueIds(ps: seq<Post>) {
    forall i, j :: 0 <= i < j < |ps| ==> ps[i].id != ps[j].id
  }

  lemma {:induction false} UniqueCountAtMostOne(ps: seq<Post>, id: int)
    requires UniqueIds(ps)
    ensures CountId(ps, id) <= 1
  {
    if ps != [] {
      assert UniqueIds(ps[1..]) by {
        forall i, j | 0 <= i < j < |ps[1..]|
          ensures ps[1..][i].id != ps[1..][j].id
        {
          assert ps[1..][i] == ps[i + 1] && ps[1..][j] == ps[j + 1];
        }
      }
      UniqueCountAtMostOne(ps[1..], id);
      if ps[0].id == id {
        forall k | 0 <= k < |ps[1..]|
          ensures ps[1..][k].id != id
        {
          assert ps[1..][k] == ps[k + 1];
        }
        WithoutIdLength(ps[1..], id);
      }
    }
  }

  /** `DELETE /posts/{id}` with `Authorization: Bearer <token>`. */
  datatype DeleteRequest = DeleteRequest(id: int, authorization: string)

  /** After `handleDelete`: the list, the request issued (none when the user
      did not confirm), and the alert shown on failure. */
  datatype DeleteOutcome = DeleteOutcome(posts: seq<Post>, request: Option<DeleteRequest>, alert: Option<string>)

  /** `handleDelete`: nothing unless confirmed; on success the post is filtered
      out of the list; on failure an alert is shown and the list is kept. */
  function Delete(ps: seq<Post>, postId: int, confirmed: bool, token: Option<string>,
                  reply: Reply<()>): (o: DeleteOutcome)
    ensures !confirmed ==> o == DeleteOutcome(ps, None, None)
    ensures confirmed ==> o.request == Some(DeleteRequest(postId, "Bearer " + TemplateText(token)))
    ensures confirmed && reply.Ok? ==> o.posts == WithoutId(ps, postId) && o.alert.None?
    ensures !(confirmed && reply.Ok?) ==> o.posts == ps
    ensures confirmed && reply.NotOk? ==> o.alert == Some("Error: Failed to delete post")
    ensures confirmed && reply.Thrown? ==> o.alert == Some("Error: " + reply.reason)
  {
    if !confirmed then DeleteOutcome(ps, None, None)
    else
      var request := Some(DeleteRequest(postId, "Bearer " + TemplateText(token)));
      match reply
      case Ok(_) => DeleteOutcome(WithoutId(ps, postId), request, None)
      case NotOk(_) => DeleteOutcome(ps, request, Some("Error: Failed to delete post"))
      case Thrown(reason) => DeleteOutcome(ps, request, Some("Error: " + reason))
  }

  /** A confirmed, successful delete of a listed post whose id is unique leaves
      one post fewer and none with that id. */
  lemma DeleteRemovesOne(ps: seq<Post>, i: int, token: Option<string>)
    requires UniqueIds(ps) && 0 <= i < |ps|
    ensures |Delete(ps, ps[i].id, true, token, Ok(())).posts| == |ps| - 1
    ensures forall p :: p in Delete(ps, ps[i].id, true, token, Ok(())).posts ==> p.id != ps[i].id
  {
    WithoutIdLength(ps, ps[i].id);
    UniqueCountAtMostOne(ps, ps[i].id);
  }

  // ---------------------------------------------------------------------------
  // Controls and rendering (posts.jsx:107-213)
  // ---------------------------------------------------------------------------

  /** `currentUserId === post.author_id`: strict equality of the two values. */
  function ShowsControls(s: FeedState, p: Post): (shows: bool)
    ensures s.currentUserId == Null && p.authorId != Null ==> !shows
    ensures s.currentUserId.Num? != p.authorId.Num? ==> !shows
    ensures s.currentUserId.Str? != p.authorId.Str? ==> !shows
    ensures s.currentUserId.Num? && p.authorId.Num? ==> (shows <==> s.currentUserId.n == p.authorId.n)
    ensures s.currentUserId.Str? && p.authorId.Str? ==> (shows <==> s.currentUserId.s == p.authorId.s)
    ensures s.currentUserId == p.authorId ==> shows
  {
    s.currentUserId == p.authorId
  }

  /** `currentUserId && <Link to="/add-post">`: whether the header of the list
      and empty views carries the add-post link; the spinner and the error
      panel have no header. */
  function ShowsAddPost(s: FeedState): (shows: bool)
    ensures s.currentUserId == Null || s.currentUserId == Undefined ==> !shows
    ensures s.currentUserId == Num(0) || s.currentUserId == Str("") ==> !shows
    ensures s.currentUserId.Num? && s.currentUserId.n != 0 ==> shows
    ensures s.currentUserId.Str? && s.currentUserId.s != "" ==> shows
  {
    IdTruthy(s.currentUserId)
  }

  /** Without a token no user id is decoded: no post with an author shows edit
      or delete controls, and the add-post link is hidden. */
  lemma AnonymousSeesNoControls(decoded: Option<JsId>, p: Post)
    requires p.authorId != Null
    ensures !ShowsControls(Mount(None, decoded).0, p)
    ensures !ShowsAddPost(Mount(None, decoded).0)
  {
  }

  /** A post shows its controls only to the user whose decoded id is its author id. */
  lemma ControlsOnlyForAuthor(token: Option<string>, decoded: Option<JsId>, p: Post)
    requires p.authorId != Null
    ensures ShowsControls(Mount(token, decoded).0, p) <==>
              PresentText(token) && decoded == Some(p.authorId)
  {
  }

  /** Strict equality never relates a string to a number: a token whose
      `user_id` claim decodes as text shows no controls on a post whose author
      id is numeric, even when both spell the same user, yet it does show the
      add-post link once the first page has arrived. */
  lemma TextClaimNeverMatchesNumericAuthor(token: Option<string>, claim: string, p: Post)
    requires p.authorId.Num? && PresentText(token) && claim != ""
    ensures !ShowsControls(Mount(token, Some(Str(claim))).0, p)
    ensures forall page: seq<Post> ::
              var v := Render(Receive(Mount(token, Some(Str(claim))).0, true, Ok(page)));
              (v.NoPosts? || v.PostList?) && v.addPost
  {
  }

  /** The four returns of the component; the list and the empty notice share a
      header that may carry the add-post link. */
  datatype View = Spinner | ErrorPanel(message: string) | NoPosts(addPost: bool)
                | PostList(items: seq<Post>, hasMore: bool, addPost: bool)

  /** The component's render: the spinner only while loading an empty list,
      then the error panel when an error is set, then the list or its empty notice. */
  function Render(s: FeedState): (v: View)
    ensures v.Spinner? <==> s.loading && s.posts == []
    ensures v.ErrorPanel? <==> !(s.loading && s.posts == []) && PresentText(s.error)
    ensures v.PostList? <==> !(s.loading && s.posts == []) && !PresentText(s.error) && s.posts != []
    ensures v.PostList? ==> v.items == s.posts && v.hasMore == s.hasMore
    ensures v.ErrorPanel? ==> v.message == s.error.value
    ensures v.NoPosts? || v.PostList? ==> (v.addPost <==> ShowsAddPost(s))
  {
    if s.loading && |s.posts| == 0 then Spinner
    else if PresentText(s.error) then ErrorPanel(s.error.value)
    else if |s.posts| == 0 then NoPosts(ShowsAddPost(s))
    else PostList(s.posts, s.hasMore, ShowsAddPost(s))
  }

  /** Once a fetch has resolved the spinner is gone for good; a failed fetch
      with a non-empty message replaces the list with the error panel. */
  lemma AfterFetchView(s: FeedState, isInitial: bool, reply: Reply<seq<Post>>)
    ensures !Render(Receive(s, isInitial, reply)).Spinner?
    ensures reply.NotOk? ==> Render(Receive(s, isInitial, reply)) == ErrorPanel("Failed to fetch posts")
  {
  }

  /** An error, once recorded, is never cleared by a later fetch. */
  lemma ErrorIsSticky(s: FeedState, token: Option<string>, rs: seq<Reply<seq<Post>>>)
    requires s.error.Some?
    ensures Rounds(s, token, rs).error.Some?
    decreases |rs|
  {
    if rs != [] {
      ErrorIsSticky(Receive(LoadMore(s, token).0, false, rs[0]), token, rs[1..]);
    }
  }
}

=== FILE: register.dfy ===
/** The registration form (frontend/src/components/Register.jsx): the ordered
    password rules, the strength meter, the per-field validation that fills
    Formik's `errors` object, and the outcome of submitting the form. */
module Register {
  import opened Common
  import EmailRule

  const Required := "Required"

  const PasswordTooShort := "Password must be at least 8 characters"

  // ---------------------------------------------------------------------------
  // Password rules (Register.jsx:9-25)
  // ---------------------------------------------------------------------------

  /** `/[A-Z]/.test(p)` */
  predicate HasUpper(p: string) { exists i :: 0 <= i < |p| && IsUpper(p[i]) }

  /** `/[a-z]/.test(p)` */
  predicate HasLower(p: string) { exists i :: 0 <= i < |p| && IsLower(p[i]) }

  /** `/[0-9]/.test(p)` */
  predicate HasDigit(p: string) { exists i :: 0 <= i < |p| && IsDigit(p[i]) }

  /** `/[^A-Za-z0-9]/.test(p)`; a character outside the Basic Multilingual Plane
      is two code units, neither of them alphanumeric, so it counts as special. */
  predicate HasSpecial(p: string) { exists i :: 0 <= i < |p| && !IsAlnum(p[i]) }

  /** The password rules, in the order the validator tries them. */
  datatype PasswordRule = NonEmpty | MinLength | Uppercase | Lowercase | Digit | Special

  const RuleOrder: seq<PasswordRule> := [NonEmpty, MinLength, Uppercase, Lowercase, Digit, Special]

  predicate Holds(rule: PasswordRule, p: string) {
    match rule
    case NonEmpty => Truthy(p)
    case MinLength => Utf16Length(p) >= 8
    case Uppercase => HasUpper(p)
    case Lowercase => HasLower(p)
    case Digit => HasDigit(p)
    case Special => HasSpecial(p)
  }

  /** The text reported when `rule` is the first one the password breaks. */
  function RuleMessage(rule: PasswordRule): string {
    match rule
    case NonEmpty => Required
    case MinLength => PasswordTooShort
    case Uppercase => "Must contain at least one uppercase letter"
    case Lowercase => "Must contain at least one lowercase letter"
    case Digit => "Must contain at least one number"
    case Special => "Must contain at least one special character"
  }

  /** Rule `RuleOrder[i]` fails on `p` and every rule before it holds. */
  predicate FirstBroken(p: string, i: int) {
    && 0 <= i < |RuleOrder|
    && !Holds(RuleOrder[i], p)
    && forall j :: 0 <= j < i ==> Holds(RuleOrder[j], p)
  }

  predicate MeetsAllRules(p: string) {
    forall i :: 0 <= i < |RuleOrder| ==> Holds(RuleOrder[i], p)
  }

  /** `validatePassword`: no error exactly when every rule holds; otherwise the
      message of the first rule, in `RuleOrder`, that the password breaks. */
  function ValidatePassword(p: string): (r: Option<string>)
    ensures r.None? <==> MeetsAllRules(p)
    ensures r.Some? ==> exists i :: FirstBroken(p, i) && r.value == RuleMessage(RuleOrder[i])
  {
    if !Truthy(p) then
      assert FirstBroken(p, 0);
      Some(RuleMessage(NonEmpty))
    else if Utf16Length(p) < 8 then
      assert FirstBroken(p, 1);
      Some(RuleMessage(MinLength))
    else if !HasUpper(p) then
      assert FirstBroken(p, 2);
      Some(RuleMessage(Uppercase))
    else if !HasLower(p) then
      assert FirstBroken(p, 3);
      Some(RuleMessage(Lowercase))
    else if !HasDigit(p) then
      assert FirstBroken(p, 4);
      Some(RuleMessage(Digit))
    else if !HasSpecial(p) then
      assert FirstBroken(p, 5);
      Some(RuleMessage(Special))
    else
      None
  }

  /** Only the first broken rule is reported: a short password without an
      uppercase letter gets the length message, not the uppercase one. */
  lemma ShortPasswordReportsLength(p: string)
    requires p != "" && Utf16Length(p) < 8
    ensures ValidatePassword(p) == Some("Password must be at least 8 characters")
  {
    assert !Holds(RuleOrder[1], p);
    var i :| FirstBroken(p, i) && ValidatePassword(p).value == RuleMessage(RuleOrder[i]);
    assert Holds(RuleOrder[0], p);
  }

  /** Every password of at least eight code units with all four character
      classes is accepted. */
  lemma AllClassesAccepted(p: string)
    requires Utf16Length(p) >= 8
    requires HasUpper(p) && HasLower(p) && HasDigit(p) && HasSpecial(p)
    ensures ValidatePassword(p).None?
  {
    forall i | 0 <= i < |RuleOrder|
      ensures Holds(RuleOrder[i], p)
    {
    }
  }

  // ---------------------------------------------------------------------------
  // Strength meter (Register.jsx:27-59)
  // ---------------------------------------------------------------------------

  function Count(b: bool): nat { if b then 1 else 0 }

  /** The number of true flags among `length`, `upper`, `lower`, `number` and `special`. */
  function StrengthScore(p: string): (score: nat)
    ensures score <= 5
    ensures score == 0 <==> p == ""
    ensures score == 5 <==> Utf16Length(p) >= 8 && HasUpper(p) && HasLower(p) && HasDigit(p) && HasSpecial(p)
  {
    if p != "" then
      assert IsUpper(p[0]) ==> HasUpper(p);
      assert IsLower(p[0]) ==> HasLower(p);
      assert IsDigit(p[0]) ==> HasDigit(p);
      assert !IsAlnum(p[0]) ==> HasSpecial(p);
      Count(Utf16Length(p) >= 8) + Count(HasUpper(p)) + Count(HasLower(p))
        + Count(HasDigit(p)) + Count(HasSpecial(p))
    else
      Count(Utf16Length(p) >= 8) + Count(HasUpper(p)) + Count(HasLower(p))
        + Count(HasDigit(p)) + Count(HasSpecial(p))
  }

  /** Every character of a non-empty password lies in one of the four classes,
      so the score of a non-empty password is at least one. */
  lemma NonEmptyScoresAtLeastOne(p: string)
    requires p != ""
    ensures 1 <= StrengthScore(p) <= 5
  {
    var c := p[0];
    if IsUpper(c) {
      assert HasUpper(p);
    } else if IsLower(c) {
      assert HasLower(p);
    } else if IsDigit(c) {
      assert HasDigit(p);
    } else {
      assert HasSpecial(p);
    }
  }

  /** The validator accepts a password exactly when its strength score is the full five. */
  lemma AcceptedIffStrengthFive(p: string)
    ensures ValidatePassword(p).None? <==> StrengthScore(p) == 5
  {
    if StrengthScore(p) == 5 {
      assert Utf16Length(p) >= 8;
      forall i | 0 <= i < |RuleOrder|
        ensures Holds(RuleOrder[i], p)
      {
      }
    }
    if ValidatePassword(p).None? {
      assert Holds(RuleOrder[1], p) && Holds(RuleOrder[2], p) && Holds(RuleOrder[3], p);
      assert Holds(RuleOrder[4], p) && Holds(RuleOrder[5], p);
    }
  }

  const StrengthTexts: seq<string> := ["Very Weak", "Weak", "Medium", "Strong", "Very Strong"]

  const StrengthColors: seq<string> := ["error", "error", "warning", "success", "success"]

  /** What the meter shows: a label and a colour, and how many of its four bars are lit. */
  datatype Meter = Meter(text: string, color: string, litBars: nat)

  /** `PasswordStrength`: nothing for an empty password; otherwise entry
      `score - 1` of the label and colour tables, which is always in range, and
      the bars `i` in 1..4 with `i <= score` lit. */
  function StrengthMeter(p: string): (m: Option<Meter>)
    ensures m.None? <==> p == ""
    ensures m.Some? ==> (m.value.text == "Very Strong" <==> ValidatePassword(p).None?)
    ensures m.Some? ==> 1 <= m.value.litBars <= 4
    ensures m.Some? ==> (m.value.color == "success" <==> StrengthScore(p) >= 4)
    ensures m.Some? ==> && m.value.text == StrengthTexts[StrengthScore(p) - 1]
                        && m.value.color == StrengthColors[StrengthScore(p) - 1]
    ensures m.Some? ==> m.value.litBars == (if StrengthScore(p) < 4 then StrengthScore(p) else 4)
  {
    if p == "" then None
    else
      var n := StrengthScore(p);
      NonEmptyScoresAtLeastOne(p);
      AcceptedIffStrengthFive(p);
      Some(Meter(StrengthTexts[n - 1], StrengthColors[n - 1], if n < 4 then n else 4))
  }

  // ---------------------------------------------------------------------------
  // Form validation (Register.jsx:75-118)
  // ---------------------------------------------------------------------------

  datatype Field = Username | Email | Password | ConfirmPassword | Phone | Address

  datatype Values = Values(
    username: string, email: string, password: string,
    confirmPassword: string, phone: string, address: string)

  /** `^[0-9]{10,15}$` */
  predicate IsPhoneNumber(s: string) {
    10 <= |s| <= 15 && forall i :: 0 <= i < |s| ==> IsDigit(s[i])
  }

  const UsernameTooShort := "Username must be at least 3 characters"
  const InvalidEmail := "Invalid email address"
  const PasswordsDiffer := "Passwords must match"
  const InvalidPhone := "Invalid phone number (10-15 digits)"
  const AddressTooShort := "Address too short"

  /** Username: required, then at least three code units. */
  function UsernameError(u: string): (r: Option<string>)
    ensures r.Some? <==> Utf16Length(u) < 3
    ensures r == Some(Required) <==> u == ""
    ensures 1 <= Utf16Length(u) < 3 ==> r == Some(UsernameTooShort)
  {
    if !Truthy(u) then Some(Required)
    else if Utf16Length(u) < 3 then Some(UsernameTooShort)
    else None
  }

  /** E-mail: required, then the e-mail pattern. */
  function EmailError(e: string): (r: Option<string>)
    ensures r.Some? <==> !EmailRule.MatchesPattern(e)
    ensures r == Some(Required) <==> e == ""
    ensures e != "" && r.Some? ==> r == Some(InvalidEmail)
  {
    EmailRule.IsEmailMatchesPattern(e);
    if !Truthy(e) then Some(Required)
    else if !EmailRule.IsEmail(e) then Some(InvalidEmail)
    else None
  }

  /** Confirmation: compared with the password whatever the password's own verdict. */
  function ConfirmError(password: string, confirm: string): (r: Option<string>)
    ensures r.Some? <==> password != confirm
    ensures r.Some? ==> r == Some(PasswordsDiffer)
  {
    if password != confirm then Some(PasswordsDiffer) else None
  }

  /** Phone: required, then 10 to 15 ASCII digits. */
  function PhoneError(ph: string): (r: Option<string>)
    ensures r.Some? <==> !IsPhoneNumber(ph)
    ensures r == Some(Required) <==> ph == ""
    ensures ph != "" && r.Some? ==> r == Some(InvalidPhone)
  {
    if !Truthy(ph) then Some(Required)
    else if !IsPhoneNumber(ph) then Some(InvalidPhone)
    else None
  }

  /** Address: required, then at least ten code units. */
  function AddressError(a: string): (r: Option<string>)
    ensures r.Some? <==> Utf16Length(a) < 10
    ensures r == Some(Required) <==> a == ""
    ensures 1 <= Utf16Length(a) < 10 ==> r == Some(AddressTooShort)
  {
    if !Truthy(a) then Some(Required)
    else if Utf16Length(a) < 10 then Some(AddressTooShort)
    else None
  }

  /** The verdict of the check for field `f`. */
  function FieldError(v: Values, f: Field): Option<string> {
    match f
    case Username => UsernameError(v.username)
    case Email => EmailError(v.email)
    case Password => ValidatePassword(v.password)
    case ConfirmPassword => ConfirmError(v.password, v.confirmPassword)
    case Phone => PhoneError(v.phone)
    case Address => AddressError(v.address)
  }

  /** The `validate` callback: it runs the check of every field and the errors
      object has a key for a field exactly when that field's check fails,
      holding that check's message. */
  function Validate(v: Values): (errors: map<Field, string>)
    ensures forall f :: f in errors <==> FieldError(v, f).Some?
    ensures forall f :: f in errors ==> errors[f] == FieldError(v, f).value
  {
    var fields := {Username, Email, Password, ConfirmPassword, Phone, Address};
    assert forall f: Field :: f.Username? || f.Email? || f.Password? || f.ConfirmPassword? || f.Phone? || f.Address?;
    map f | f in fields && FieldError(v, f).Some? :: FieldError(v, f).value
  }

  /** Field by field, what makes the registration form invalid. */
  lemma ValidateFieldByField(v: Values)
    ensures Username in Validate(v) <==> Utf16Length(v.username) < 3
    ensures Email in Validate(v) <==> !EmailRule.MatchesPattern(v.email)
    ensures Password in Validate(v) <==> StrengthScore(v.password) < 5
    ensures ConfirmPassword in Validate(v) <==> v.password != v.confirmPassword
    ensures Phone in Validate(v) <==> !IsPhoneNumber(v.phone)
    ensures Address in Validate(v) <==> Utf16Length(v.address) < 10
  {
    assert FieldError(v, Password) == ValidatePassword(v.password);
    AcceptedIffStrengthFive(v.password);
  }

  /** The mismatch error depends on the two password fields alone, not on
      whether the password itself is acceptable. */
  lemma MismatchIndependentOfStrength(v: Values, w: Values)
    requires v.password == w.password && v.confirmPassword == w.confirmPassword
    ensures (ConfirmPassword in Validate(v)) == (ConfirmPassword in Validate(w))
  {
  }

  // ---------------------------------------------------------------------------
  // Submission (Register.jsx:119-149)
  // ---------------------------------------------------------------------------

  /** The JSON body posted to the registration endpoint. */
  datatype Registration = Registration(username: string, email: string, password: string)

  /** After a submit: the body that was posted, if any, the banner text, where
      the router was sent, and whether the form is still submitting. */
  datatype SubmitOutcome = SubmitOutcome(
    sent: Option<Registration>, banner: string, navigateTo: Option<string>, submitting: bool)

  /** Formik's submit: while `validate` reports errors `onSubmit` does not run,
      nothing is posted and the banner keeps `prevBanner`. Otherwise the banner
      is cleared, the three account fields are posted; success navigates to
      the login page, a failure shows the server's message or a fallback. */
  function Submit(v: Values, prevBanner: string, reply: Reply<()>): (o: SubmitOutcome)
    ensures o.sent.Some? <==> Validate(v) == map[]
    ensures o.sent.Some? ==> o.sent.value == Registration(v.username, v.email, v.password)
    ensures o.sent.None? ==> o.banner == prevBanner && o.navigateTo.None?
    ensures o.navigateTo.Some? <==> o.sent.Some? && reply.Ok?
    ensures o.navigateTo.Some? ==> o.navigateTo.value == "/login" && o.banner == ""
    ensures o.sent.Some? && reply.NotOk? ==> o.banner == OrElse(reply.message, "Registration failed")
    ensures o.sent.Some? && reply.Thrown? ==>
              o.banner == OrElse(Some(reply.reason), "An error occurred during registration")
    ensures o.sent.Some? && !reply.Ok? ==> Truthy(o.banner)
    ensures !o.submitting
  {
    if Validate(v) != map[] then SubmitOutcome(None, prevBanner, None, false)
    else
    var sent := Some(Registration(v.username, v.email, v.password));
    match reply
    case Ok(_) => SubmitOutcome(sent, "", Some("/login"), false)
    case NotOk(m) =>
      SubmitOutcome(sent, OrElse(Some(OrElse(m, "Registration failed")), "An error occurred during registration"),
                    None, false)
    case Thrown(reason) =>
      SubmitOutcome(sent, OrElse(Some(reason), "An error occurred during registration"), None, false)
  }
}

=== FILE: views.dfy ===
/** The posts API (backend/posts/views.py): the permission classes of the list
    and detail views, the order in which the REST framework applies them, and
    the list view's `create`, which binds the author and turns every exception
    into a 500 response. */
module PostViews {
  import opened Common

  /** A signed-in user's primary key; the anonymous user is `None`. */
  type UserId = nat

  /** `SAFE_METHODS`: the methods that only read. */
  predicate Safe(m: HttpMethod) {
    m == GET || m == HEAD || m == OPTIONS
  }

  /** A stored post, with the user it belongs to. */
  datatype PostRecord = PostRecord(
    id: nat, title: string, content: string, date: string,
    imageUrl: Option<string>, author: UserId)

  /** The permission classes the two views use. */
  datatype Permission = IsAuthenticated | IsAuthenticatedOrReadOnly | IsAuthorOrReadOnly

  /** `has_permission`, checked on every request before the handler runs.
      `IsAuthorOrReadOnly` keeps the base class's answer, which grants everything. */
  function HasPermission(p: Permission, m: HttpMethod, user: Option<UserId>): (granted: bool)
    ensures p == IsAuthorOrReadOnly ==> granted
    ensures user.Some? ==> granted
    ensures user.None? && p == IsAuthenticated ==> !granted
    ensures user.None? && p == IsAuthenticatedOrReadOnly ==> (granted <==> Safe(m))
  {
    match p
    case IsAuthenticated => user.Some?
    case IsAuthenticatedOrReadOnly => Safe(m) || user.Some?
    case IsAuthorOrReadOnly => true
  }

  /** `has_object_permission`, checked when a handler looks its post up. Only
      `IsAuthorOrReadOnly` overrides the base class: a safe method is always
      granted, any other only to the post's author; the anonymous user is
      nobody's author. */
  function HasObjectPermission(p: Permission, m: HttpMethod, user: Option<UserId>, obj: PostRecord): (granted: bool)
    ensures Safe(m) ==> granted
    ensures p != IsAuthorOrReadOnly ==> granted
    ensures p == IsAuthorOrReadOnly && !Safe(m) ==> (granted <==> user == Some(obj.author))
  {
    if p != IsAuthorOrReadOnly || Safe(m) then true
    else match user
      case None => false
      case Some(u) => obj.author == u
  }

  /** Why a request is refused before its handler does any work. */
  datatype Refusal = NotAuthenticated | PermissionDenied | MethodNotAllowed | NotFound

  /** `permission_denied`: an anonymous request is told to authenticate, a
      signed-in one that it is not allowed. */
  function Deny(user: Option<UserId>): (r: Refusal)
    ensures r == NotAuthenticated <==> user.None?
    ensures r == PermissionDenied <==> user.Some?
  {
    if user.None? then NotAuthenticated else PermissionDenied
  }

  /** `check_permissions`: the classes are asked in order and the first that
      refuses decides. */
  function CheckPermissions(perms: seq<Permission>, m: HttpMethod, user: Option<UserId>): (r: Option<Refusal>)
    ensures r.None? <==> forall i :: 0 <= i < |perms| ==> HasPermission(perms[i], m, user)
    ensures r.Some? ==> r.value == Deny(user)
  {
    if perms == [] then None
    else if !HasPermission(perms[0], m, user) then Some(Deny(user))
    else CheckPermissions(perms[1..], m, user)
  }

  /** `check_object_permissions`, in the same order. */
  function CheckObjectPermissions(perms: seq<Permission>, m: HttpMethod, user: Option<UserId>,
                                  obj: PostRecord): (r: Option<Refusal>)
    ensures r.None? <==> forall i :: 0 <= i < |perms| ==> HasObjectPermission(perms[i], m, user, obj)
    ensures r.Some? ==> r.value == Deny(user)
  {
    if perms == [] then None
    else if !HasObjectPermission(perms[0], m, user, obj) then Some(Deny(user))
    else CheckObjectPermissions(perms[1..], m, user, obj)
  }

  /** A generic view: its permission classes, the methods it has handlers for,
      and whether its handlers look up one post (`get_object`). */
  datatype View = View(permissions: seq<Permission>, handlers: set<HttpMethod>, looksUpPost: bool)

  /** `PostList`, a list-and-create view. */
  const PostList := View([IsAuthenticatedOrReadOnly], {GET, HEAD, POST, OPTIONS}, false)

  /** `PostDetail`, a retrieve-update-destroy view. */
  const PostDetail := View([IsAuthenticated, IsAuthorOrReadOnly], {GET, HEAD, PUT, PATCH, DELETE, OPTIONS}, true)

  /** The outcome of access control for one request. */
  datatype Decision = Proceed | Refused(refusal: Refusal)

  /** What happens before a handler does its work: the view's permission
      classes, then the method lookup, then (for a handler that reads one post,
      which the metadata reply to `OPTIONS` is not) the lookup and the object
      permissions. `post` is the stored post the URL names, if any. */
  function Dispatch(v: View, m: HttpMethod, user: Option<UserId>, post: Option<PostRecord>): (d: Decision)
    ensures d.Refused? && d.refusal == MethodNotAllowed ==> m !in v.handlers
    ensures d.Refused? && d.refusal == NotFound ==> v.looksUpPost && post.None?
    ensures d == Proceed ==> forall i :: 0 <= i < |v.permissions| ==> HasPermission(v.permissions[i], m, user)
  {
    match CheckPermissions(v.permissions, m, user)
    case Some(refusal) => Refused(refusal)
    case None =>
      if m !in v.handlers then Refused(MethodNotAllowed)
      else if !v.looksUpPost || m == OPTIONS then Proceed
      else match post
        case None => Refused(NotFound)
        case Some(obj) =>
          match CheckObjectPermissions(v.permissions, m, user, obj)
          case Some(refusal) => Refused(refusal)
          case None => Proceed
  }

  /** The list view: reads are open to everyone, a create needs a signed-in
      user, and a method it has no handler for is refused once the permission
      check has passed. */
  lemma PostListAccess(m: HttpMethod, user: Option<UserId>, post: Option<PostRecord>)
    ensures Dispatch(PostList, m, user, post) == Proceed <==>
              (Safe(m) || user.Some?) && m in {GET, HEAD, POST, OPTIONS}
    ensures user.None? && !Safe(m) ==> Dispatch(PostList, m, user, post) == Refused(NotAuthenticated)
    ensures user.Some? && m in {PUT, PATCH, DELETE} ==> Dispatch(PostList, m, user, post) == Refused(MethodNotAllowed)
  {
    assert PostList.permissions[0] == IsAuthenticatedOrReadOnly;
  }

  /** Anonymous users may read the list but not add to it. */
  lemma AnonymousReadsButCannotCreate(post: Option<PostRecord>)
    ensures Dispatch(PostList, GET, None, post) == Proceed
    ensures Dispatch(PostList, HEAD, None, post) == Proceed
    ensures Dispatch(PostList, POST, None, post) == Refused(NotAuthenticated)
  {
    PostListAccess(GET, None, post);
    PostListAccess(HEAD, None, post);
    PostListAccess(POST, None, post);
  }

  /** The detail view: every method, reads included, needs a signed-in user;
      then `POST` has no handler, `OPTIONS` needs no post, a missing post is
      not found, and a write needs the post's author. */
  lemma PostDetailAccess(m: HttpMethod, user: Option<UserId>, post: Option<PostRecord>)
    ensures Dispatch(PostDetail, m, user, post) == Proceed <==>
              && user.Some? && m != POST
              && (m == OPTIONS || (post.Some? && (Safe(m) || post.value.author == user.value)))
    ensures user.None? ==> Dispatch(PostDetail, m, user, post) == Refused(NotAuthenticated)
    ensures user.Some? && m == POST ==> Dispatch(PostDetail, m, user, post) == Refused(MethodNotAllowed)
    ensures user.Some? && m != POST && m != OPTIONS && post.None? ==>
              Dispatch(PostDetail, m, user, post) == Refused(NotFound)
    ensures user.Some? && post.Some? && !Safe(m) && m != POST && post.value.author != user.value ==>
              Dispatch(PostDetail, m, user, post) == Refused(PermissionDenied)
  {
    assert PostDetail.permissions[0] == IsAuthenticated;
    assert PostDetail.permissions[1] == IsAuthorOrReadOnly;
  }

  /** Whatever the method, only the author gets past the detail view with a write. */
  lemma OnlyAuthorWrites(m: HttpMethod, user: Option<UserId>, obj: PostRecord)
    requires !Safe(m)
    ensures Dispatch(PostDetail, m, user, Some(obj)) == Proceed <==> m != POST && user == Some(obj.author)
  {
    PostDetailAccess(m, user, Some(obj));
  }

  // ---------------------------------------------------------------------------
  // Creating a post
  // ---------------------------------------------------------------------------

  /** The create request's body; a client may name an author in it. */
  datatype Body = Body(title: string, content: string, date: string,
                       imageUrl: Option<string>, author: Option<UserId>)

  /** What the list view answers to a `POST`. */
  datatype CreateResponse =
    | Denied(refusal: Refusal)
    | Created(post: PostRecord)
    | ServerError(error: string, details: string)

  /** The HTTP status of each answer. A refused anonymous request is 401
      because the token authenticator names a scheme in `WWW-Authenticate`. */
  function Status(r: CreateResponse): (code: nat)
    ensures r.Created? <==> code == 201
    ensures r.ServerError? <==> code == 500
  {
    match r
    case Created(_) => 201
    case ServerError(_, _) => 500
    case Denied(NotAuthenticated) => 401
    case Denied(PermissionDenied) => 403
    case Denied(NotFound) => 404
    case Denied(MethodNotAllowed) => 405
  }

  /** `create` after access control has passed: `invalid` is the text of the
      serializer's validation error and `saveFailure` that of an exception
      raised while saving; `perform_create` saves with the requesting user
      as author. Every exception is caught and answered with a 500 carrying
      `error` and `details`. `newId` is the key the database assigns. */
  function Create(user: UserId, body: Body, invalid: Option<string>, saveFailure: Option<string>,
                  newId: nat): (r: CreateResponse)
    ensures r.Created? <==> invalid.None? && saveFailure.None?
    ensures r.Created? ==>
              r.post == PostRecord(newId, body.title, body.content, body.date, body.imageUrl, user)
    ensures r.ServerError? ==> r.error == "Internal server error"
    ensures invalid.Some? ==> r == ServerError("Internal server error", invalid.value)
    ensures invalid.None? && saveFailure.Some? ==> r == ServerError("Internal server error", saveFailure.value)
    ensures !r.Denied?
  {
    if invalid.Some? then InternalError(invalid.value)
    else if saveFailure.Some? then InternalError(saveFailure.value)
    else Created(PostRecord(newId, body.title, body.content, body.date, body.imageUrl, user))
  }

  /** The `except` branch of `create`. */
  function InternalError(details: string): (r: CreateResponse)
    ensures Status(r) == 500 && r.details == details
  {
    ServerError("Internal server error", details)
  }

  /** A `POST` to the list view: access control, then `create`. */
  function ListCreate(user: Option<UserId>, body: Body, invalid: Option<string>,
                      saveFailure: Option<string>, newId: nat): (r: CreateResponse)
    ensures user.None? ==> r == Denied(NotAuthenticated)
    ensures user.Some? ==> r == Create(user.value, body, invalid, saveFailure, newId)
  {
    match Dispatch(PostList, POST, user, None)
    case Refused(refusal) => Denied(refusal)
    case Proceed => Create(user.value, body, invalid, saveFailure, newId)
  }

  /** For a fixed serializer verdict the author named in the body never
      matters: two bodies that differ only in it get the same answer, whose
      author is the requesting user. */
  lemma AuthorIsRequester(user: Option<UserId>, body: Body, claimed: Option<UserId>,
                          invalid: Option<string>, saveFailure: Option<string>, newId: nat)
    ensures ListCreate(user, body, invalid, saveFailure, newId)
            == ListCreate(user, body.(author := claimed), invalid, saveFailure, newId)
    ensures ListCreate(user, body, invalid, saveFailure, newId).Created? ==>
              Some(ListCreate(user, body, invalid, saveFailure, newId).post.author) == user
  {
  }

  /** A signed-in create is answered 201 or 500 and nothing else; 500 exactly
      when validation or saving raised. */
  lemma CreateIsCreatedOrServerError(user: UserId, body: Body, invalid: Option<string>,
                                     saveFailure: Option<string>, newId: nat)
    ensures var code := Status(ListCreate(Some(user), body, invalid, saveFailure, newId));
            && (code == 201 || code == 500)
            && (code == 500 <==> invalid.Some? || saveFailure.Some?)
  {
  }
}
